=== FILE: README.md ===
# Egg price crawler: extraction and upsert core

This project models the logic core of `egg_crawler.py`. That script crawls
the egg search pages of two New Zealand supermarkets, Woolworths and
Pak'nSave, picks a product name and a price out of each listing fragment,
and upserts the results into a Firestore collection. The browser, the
network and Firestore are stripped away. What remains is pure logic over
strings, fragment trees, sequences and maps:

- **Prices** (`prices.dfy`). The price tokenizer is the regex
  `\$[\d,]+\.?\d{2}` applied as `re.findall`. The model includes its
  backtracking: the engine returns the longest match, and it backtracks
  into the `[\d,]+` run when the optional dot leaves too few digits. A
  token's value is kept in integer cents. The Woolworths choice is the
  first token in the unit-price band 0.30–2.00, else the first token. The
  fallback pattern `[\$]?\d+\.\d{2}` is modelled too.
- **Fragments** (`dom.dfy`). A listing fragment is a small immutable
  tree. The model covers BeautifulSoup's `find` (the first descendant in
  document order), `find_all`, `get_text()` and `get_text(strip=True)`.
- **Names** (`extractor.dfy`, `name_cleanup.dfy`). The name lookup is a
  cascade of three structural searches. Woolworths adds a fallback that
  scans the fragment's text lines for "egg". Woolworths cleanup applies
  four end-anchored `re.sub` rules and then a strip. Pak'nSave removes one
  trailing ` - <digits>` rule. Each extractor returns `None` on every path
  where the source returns `None`.
- **Listing** (`listing.dfy`). The first product selector with a
  non-empty result wins, with a fallback scan when every selector selects
  nothing. At most 30 candidates are extracted, and the "egg" filter
  follows. `crawl_all` concatenates the two sources.
- **Upsert** (`upsert.dfy`). The upload is a left fold of the results
  over a `map` from document id to record. An existing document is
  updated and keeps its `created_at`; a missing one is created. The upload
  returns the count of created plus updated documents.

`text_ops.dfy` holds the string helpers the model shares: Python's `\s`
and `str.isspace` by code point, `strip`, ASCII `lower`, `split`, and
substring search. `seqs.dfy` holds the generic sequence searches: the first
element that passes a test, and the elements that pass it, in order and
with their multiplicity. `wrappers.dfy` holds `Option`.

Behaviour of the code worth knowing:

- Woolworths checks the name length (at least 5) before the cleanup rules
  run, never after. A cleaned name can therefore be shorter than 5, or
  empty.
- A document id repeated within one batch is not collapsed. The first
  occurrence creates the document and later ones update it, so the last
  item's price wins and the count grows by one per item.
- The id string is `store + "_" + item_name`, lower-cased and stripped as
  a whole. The fields are not normalised one by one.
- The `$` that the fallback pattern allows at the start can never be part
  of a fallback match. The fallback runs only when the primary tokenizer
  found nothing, and a `$` directly before `\d+\.\d{2}` would already be a
  primary token.

## Model

| member | source | states |
|---|---|---|
| Prices.PriceMatchAt | egg_crawler.py:159 | what the engine matches at one position is a full match of `\$[\d,]+\.?\d{2}` |
| Prices.PriceMatchAtLongest | egg_crawler.py:159 | the engine's match at a position is the longest full match starting there, and there is one whenever any full match starts there |
| Prices.BacktrackReaches | egg_crawler.py:159 | backtracking through the `[\d,]+` run finds a shorter run whenever the tail matches after it |
| Prices.PriceSpans | egg_crawler.py:159 | findall spans are the engine's match at their start, strictly left to right and non-overlapping, and every position where a match could begin is covered by some span |
| Prices.Scan | egg_crawler.py:159 | the leftmost non-overlapping scan, for any matcher whose matches advance: each span is the match at its start, spans do not overlap, and no match start is skipped |
| Prices.Tokens | egg_crawler.py:159 | the findall tokens are the texts of the findall spans, one per span and in the same order; each is a complete price text |
| Prices.TokensEmpty | egg_crawler.py:159-160 | findall returns no token exactly when no substring of the text matches the price pattern |
| Prices.FirstToken | egg_crawler.py:236-238 | `re.search` gives the first findall token, and nothing exactly when findall gives nothing |
| Prices.FirstTokenIsLeftmost | egg_crawler.py:236-238 | the first token is the engine's match at the leftmost position where the pattern matches at all |
| Prices.Without | egg_crawler.py:163 | removing `$` and `,` leaves none of them, and a text without them is unchanged |
| Prices.Cents | egg_crawler.py:163 | a token without a dot is a whole number of dollars |
| Prices.CentsOfDotted | egg_crawler.py:163-164 | a token `$<digits and commas>.<two digits>` is worth its digits with the commas removed times 100, plus the two decimals; an empty integer part reads as 0 |
| Prices.CentsOfUndotted | egg_crawler.py:163-164 | a token without a dot is worth its digits with the commas removed times 100 |
| Prices.ChooseUnitPrice | egg_crawler.py:160-169 | no choice exactly for no tokens; the choice is one of the tokens; it is the first token whose cents lie in [30, 200] when there is one, else the first token |
| Prices.AltMatchAtComplete | egg_crawler.py:172 | the fallback matcher finds a match at every position where `[\$]?\d+\.\d{2}` fully matches a substring |
| Prices.AltSearch | egg_crawler.py:172-174 | the first fallback match is the leftmost one |
| Prices.FallbackNeverStartsWithDollar | egg_crawler.py:170-174 | when the primary tokenizer finds nothing, every fallback match is a bare `\d+\.\d{2}` with no leading `$` |
| Seqs.FirstIndex | egg_crawler.py:163-167 | the index of the first element at or after a start that passes a test, with none before it; nothing exactly when none passes |
| Seqs.FirstSatisfying | egg_crawler.py:124-128 | the first element satisfying a test, with none before it; nothing exactly when no element satisfies it |
| Seqs.FirstSatisfyingAppend | egg_crawler.py:124-128 | the first match in a concatenation is the first match in the front part, else in the back part |
| Dom.FindFirstIsFirstInDocumentOrder | egg_crawler.py:124-128 | the recursive tree search returns the first match of the document-order flattening |
| Dom.Find | egg_crawler.py:124-128 | `find` returns the first descendant in document order that passes the test |
| Seqs.Filter | egg_crawler.py:305 | the kept elements are a subsequence of the input, all pass the test, and each passing element is kept exactly as often as it occurs |
| Seqs.FilterAppend | egg_crawler.py:305 | filtering a concatenation filters each part in turn, so the input order is kept |
| Seqs.FilterOne | egg_crawler.py:305 | a single element is kept exactly when it passes the test |
| Dom.FindAll | egg_crawler.py:305 | `find_all` returns the passing descendants in document order, each as often as it occurs |
| Dom.GetText | egg_crawler.py:136 | `get_text()` of a text node is its own string |
| Dom.GetTextOfElem | egg_crawler.py:136 | `get_text()` of an element is its children's `get_text()` concatenated in order |
| Dom.GetTextStrip | egg_crawler.py:131 | `get_text(strip=True)` has no leading or trailing whitespace, and of a text node it is that node's string stripped |
| Dom.GetTextStripOfElem | egg_crawler.py:131 | `get_text(strip=True)` of an element is its children's stripped texts concatenated in order, so stripping never crosses a child boundary |
| TextOps.Strip | egg_crawler.py:152 | `strip` returns a contiguous slice with only whitespace cut off at the ends, and its result has no edge whitespace |
| TextOps.Lower | egg_crawler.py:134 | `lower()` keeps the length and maps each character by itself, ASCII capitals to lower case and every other character unchanged |
| TextOps.StripIdempotent | egg_crawler.py:152 | stripping twice is stripping once |
| TextOps.SplitOn | egg_crawler.py:137 | `split('\n')` gives parts without the separator that join back to the input |
| TextOps.SplitOnJoin | egg_crawler.py:137 | splitting undoes joining for parts that do not hold the separator |
| TextOps.StrippedNonBlank | egg_crawler.py:137 | the comprehension keeps the stripped pieces in order, each non-empty one as often as it occurs, and drops the empty ones |
| TextOps.StrippedNonBlankAppend | egg_crawler.py:137 | the comprehension over a concatenation is the concatenation of the comprehensions |
| TextOps.StrippedNonBlankOne | egg_crawler.py:137 | one piece gives its stripped text, or nothing when that is empty |
| TextOps.Lines | egg_crawler.py:137 | the stripped non-blank lines are non-empty, have no edge whitespace and contain no newline |
| TextOps.LinesOfJoin | egg_crawler.py:137 | the lines of newline-free lines joined by newlines are those lines stripped, in order, with the blank ones dropped |
| Extractor.NameElement | egg_crawler.py:124-128 | the name element is a descendant; nothing exactly when no descendant passes any of the three lookups; a titled element wins when there is one, then a link, then a heading, each the first of its kind in document order |
| Extractor.StructuredName | egg_crawler.py:130-131 | a structured name exists exactly when a name element does; it is that element's `get_text(strip=True)`, so it has no edge whitespace |
| Extractor.WoolworthsRawName | egg_crawler.py:130-141 | the structured name stands unless it is missing, shorter than 5 or a generic label; otherwise the first stripped line that mentions "egg" and is longer than 10 replaces it whenever there is one, and no qualifying line leaves it as it was |
| Extractor.FallbackPrice | egg_crawler.py:170-174 | with no primary token: nothing exactly when the fallback pattern matches nowhere, else `$` followed by the leftmost fallback match |
| Extractor.WoolworthsPrice | egg_crawler.py:154-177 | no price exactly when neither pattern matches; the unit-price choice when there are tokens, the fallback otherwise; a price always starts with `$` and has at least 4 characters |
| Extractor.PriceElemText | egg_crawler.py:229-236 | the price element's stripped text: the first `span`/`div` below the fragment whose class mentions "price" when there is one, else the element a `string=` search for `$` finds, else none |
| Extractor.PaknsavePrice | egg_crawler.py:221-242 | the first token of the fragment text, else the first token of the price element's text; nothing exactly when both are empty; every price is a price text containing `$` |
| Extractor.ExtractWoolworths | egg_crawler.py:111-183 | an item exactly when the raw name exists, is at least 5 long and a price exists; an item carries the Woolworths label, the cleaned raw name and the chosen price |
| Extractor.ExtractPaknsave | egg_crawler.py:189-248 | no item exactly when there is no structured name, the cleaned name is shorter than 5, or neither the fragment text nor the price element's text has a token; an item carries the Pak'nSave label, the cleaned name and that price |
| NameCleanup.Cut | egg_crawler.py:148-151 | one rule cuts the name at the leftmost position where the rule matches up to the end; the result is a prefix with no match position before its end |
| NameCleanup.RuleSpanHasPrice | egg_crawler.py:148-151 | every rule match contains a price token |
| NameCleanup.CutLeavesNoMatch | egg_crawler.py:148-151 | after a cut of a newline-free name, the rule matches nowhere in the result |
| NameCleanup.CutWithoutPrice | egg_crawler.py:148-151 | a name with no price token is left unchanged by every rule |
| NameCleanup.RuleCuts | egg_crawler.py:148-151 | the four rules in order leave a prefix of the name, and leave a name with no price text unchanged |
| NameCleanup.CleanWoolworthsName | egg_crawler.py:148-152 | the cleaned name is the result of the four rules with only edge whitespace cut off, so it has none; a name with no price text is only stripped |
| NameCleanup.CleanIsSubstring | egg_crawler.py:148-152 | the cleaned name is a contiguous substring of the input |
| NameCleanup.CleanHasNoPrice | egg_crawler.py:148-152 | the cleaned name contains no `\$[\d,]+\.?\d{2}` token |
| NameCleanup.CleanIdempotent | egg_crawler.py:148-152 | cleaning a cleaned name changes nothing |
| NameCleanup.TrailCut | egg_crawler.py:214 | the trailing `\s*-\s*\d+\s*$` rule cuts at its leftmost match, leaving a prefix |
| NameCleanup.CleanPaknsaveName | egg_crawler.py:212-215 | the Pak'nSave name is the stripped prefix before a trailing-size match with no match further left, or the stripped whole name when there is no match |
| Listing.SelectCandidates | egg_crawler.py:295-305 | the candidates are what the first selector with a non-empty result selects; the fallback scan is used only when every selector selects nothing |
| Listing.LaterSelectorsNeverConsulted | egg_crawler.py:296-300 | replacing every selector after the winning one changes nothing |
| Listing.Capped | egg_crawler.py:307 | exactly the first min(30, n) candidates, in order |
| Listing.Extractions | egg_crawler.py:307-308 | every extracted item comes from a candidate the extractor accepts |
| Listing.ExtractionsAppend | egg_crawler.py:307-308 | extraction works candidate by candidate, so the candidates' order is kept |
| Listing.ExtractionsOne | egg_crawler.py:307-308 | one candidate gives its item when accepted and nothing otherwise |
| Listing.KeepEggs | egg_crawler.py:309-310 | the kept items are a subsequence of the extractions, all mention "egg", and each item that mentions "egg" is kept as often as it occurs |
| Listing.CrawlSource | egg_crawler.py:307-311 | one source's output is a subsequence of its extractions of the first 30 candidates; every item mentions "egg" and comes from a candidate; every extraction that mentions "egg" is kept as often as it occurs |
| Listing.CrawlWoolworths | egg_crawler.py:295-311 | at most 30 items, a subsequence of the Woolworths extractions, each labelled Woolworths and mentioning "egg"; every extraction that mentions "egg" is kept as often as it occurs |
| Listing.CrawlPaknsave | egg_crawler.py:366-382 | at most 30 items, a subsequence of the Pak'nSave extractions, each labelled Pak'nSave and mentioning "egg"; every extraction that mentions "egg" is kept as often as it occurs |
| Listing.JoinKeepsSourceOrder | egg_crawler.py:404-417 | in the joined list every Woolworths item precedes every Pak'nSave item |
| Listing.CrawlAll | egg_crawler.py:404-417 | the Woolworths list followed by the Pak'nSave list; at most 60 items, each from one of the two stores and mentioning "egg" |
| Upsert.IdString | egg_crawler.py:482 | the id string is the lower-cased `store_name` with exactly its edge whitespace cut off; it has no edge whitespace and no upper-case ASCII letter |
| Upsert.DocIdOf | egg_crawler.py:483 | items with the same id string get the same document id |
| Upsert.IdIgnoresCase | egg_crawler.py:482 | items whose store and name agree up to ASCII case get the same id string, so they write the same document |
| Upsert.BatchIdsAreItemIds | egg_crawler.py:482-483 | every document id the batch writes is the id of one of its items |
| Upsert.Step | egg_crawler.py:495-510 | an existing id is updated, keeps its stored `created_at` and counts as updated; a missing id is set with `created_at` now and counts as created; no other document changes |
| Upsert.Batch | egg_crawler.py:473-519 | created plus updated equals the number of items; the ids afterwards are the old ids plus the batch's; documents outside the batch are unchanged; every written document's `created_at` is its stored one if present, else now |
| Upsert.CreatedCountsNewIds | egg_crawler.py:499-510 | the created count is the number of distinct batch ids the store did not hold |
| Upsert.LastWriteWins | egg_crawler.py:484-510 | a document holds the fields of the last item written to it |
| Upsert.BatchContents | egg_crawler.py:484-510 | every document the batch writes holds the last item with its id, this crawl's dates, and the `created_at` it had before if any, else now |
| Upsert.Upload | egg_crawler.py:457-519 | 0 and no change when not initialised or when there are no results; otherwise the count is the number of results, the store is the batch's result, each written document holds the last result with its id (with this crawl's dates and `createdAt` kept from an existing document), and other documents are unchanged |
| Upsert.RerunCreatesNothing | egg_crawler.py:495-510 | uploading the same results again creates no document |
| Upsert.RerunSameClockIsIdempotent | egg_crawler.py:484-510 | uploading the same results again at the same clock readings leaves the store unchanged |

## Left out

- Selenium driver setup, page loading, `time.sleep` and `WebDriverWait`: these are browser I/O and timing. A page enters the model as its parsed root fragment.
- The `requests` session: nothing in the logic uses it.
- Firebase credentials, environment lookups and initialisation: the model reduces them to the `initialised` flag of `Upsert.Upload`.
- Firestore calls: replaced by a pure `map`. `update` merges fields into a document; the model's record has exactly the six fields the upload writes, so fields written by other code are not modelled.
- `datetime.now()` and `SERVER_TIMESTAMP`: each is one parameter per upload (`crawlDate`, `serverTime`). The server may stamp each write with a different time; the model uses one value per batch.
- The MD5 digest: a parameter `digest`, so the upsert properties hold for any digest, collisions included.
- Exception handling: the per-item and whole-call `try`/`except` blocks, and the crawl-level handlers that return the items gathered so far, are not modelled. The model's operations are total.
- CSS selector semantics of `soup.select`: each selector is a function from the page to the fragments it selects.
- BeautifulSoup details: attribute-value matching beyond "has an `href`" is not modelled. A `class_` function is applied to each class value, as bs4 does for a multi-valued `class`; bs4 also tries it on the space-joined class string, which gives the same answer here because every class test is a test for a substring without a space.
- Extractor.ExtractPaknsave: the `string=` lookup for an element whose own text contains `$` is a parameter (`dollarElem`). It is the optional element consulted when no `price` class element exists.
- The text case operations: `lower()` is ASCII-only, and `\d` is ASCII digits only. Python's Unicode case mapping and Unicode digits are not modelled. Whitespace follows Python's Unicode `\s` by code point.
- Floats: prices are integer cents. Every token has at most two decimals, so comparing them against 0.30 and 2.00 is exact.
- NameCleanup.Cut: its contract covers names without a newline only. With a newline, `.*?$` without `re.MULTILINE` can also stop just before a final newline, and that case is not claimed.
- NameCleanup.RuleCuts: the prefix property covers names without a newline only, for the same reason.
- NameCleanup.CutLeavesNoMatch: requires a name without a newline. With a newline the property fails: the fourth rule cuts "$1.00\n$2.00" to "$1.00", because `\s*` can take the newline, and the fourth rule still matches "$1.00".
- NameCleanup.CleanIsSubstring: requires a name without a newline, for the same reason.
- NameCleanup.CleanHasNoPrice: requires a name without a newline. With a newline the property fails: "$1.00\n$2.00" is cleaned to "$1.00".
- NameCleanup.CleanIdempotent: requires a name without a newline. With a newline the property fails: "$1.00\n$2.00" is cleaned to "$1.00", and cleaning that again gives the empty name.
- JSON output (`save_to_json`), console printing (`print_results`), logging and `main`: output only.

=== FILE: dom.dfy ===
/**
 * The parsed-page fragment model: an immutable tree of elements and text
 * runs, with the three capabilities the crawler uses from its HTML parser —
 * `find` (first matching descendant), `find_all` (every matching descendant)
 * and `get_text` (raw, or with every string stripped).
 */
module Dom {
  import opened Wrappers
  import opened TextOps
  import opened Seqs

  /** An element (tag name, class values, whether an `href` attribute is
      present, children in document order), or a run of text. */
  datatype Frag =
    | Elem(tag: string, classes: seq<string>, hasHref: bool, children: seq<Frag>)
    | Text(text: string)

  function Children(f: Frag): seq<Frag> {
    if f.Elem? then f.children else []
  }

  /** Every node of the forest `fs` in document order: each node comes before
      its own descendants, which come before its later siblings. */
  function Flatten(fs: seq<Frag>): seq<Frag>
    decreases fs
  {
    if fs == [] then []
    else
      match fs[0]
      case Text(_) => [fs[0]] + Flatten(fs[1..])
      case Elem(_, _, _, cs) =>
        assert fs[0] in fs;
        [fs[0]] + Flatten(cs) + Flatten(fs[1..])
  }

  /** `Tag.descendants`: every node strictly below `f`, in document order. */
  function Descendants(f: Frag): seq<Frag> {
    Flatten(Children(f))
  }

  /** Depth-first, pre-order search of the forest `fs` for a node satisfying `p`. */
  function FindFirst(fs: seq<Frag>, p: Frag -> bool): Option<Frag>
    decreases fs
  {
    if fs == [] then None
    else if p(fs[0]) then Some(fs[0])
    else
      match fs[0]
      case Text(_) => FindFirst(fs[1..], p)
      case Elem(_, _, _, cs) =>
        assert fs[0] in fs;
        match FindFirst(cs, p)
        case Some(x) => Some(x)
        case None => FindFirst(fs[1..], p)
  }

  /** The search finds exactly the first satisfying node in document order. */
  lemma {:induction false} FindFirstIsFirstInDocumentOrder(fs: seq<Frag>, p: Frag -> bool)
    ensures FindFirst(fs, p) == FirstSatisfying(Flatten(fs), p)
    decreases fs
  {
    if fs != [] {
      match fs[0]
      case Text(_) =>
        FirstSatisfyingAppend([fs[0]], Flatten(fs[1..]), p);
        FindFirstIsFirstInDocumentOrder(fs[1..], p);
      case Elem(_, _, _, cs) =>
        assert fs[0] in fs;
        FindFirstIsFirstInDocumentOrder(cs, p);
        FindFirstIsFirstInDocumentOrder(fs[1..], p);
        assert Flatten(fs) == [fs[0]] + (Flatten(cs) + Flatten(fs[1..]));
        FirstSatisfyingAppend([fs[0]], Flatten(cs) + Flatten(fs[1..]), p);
        FirstSatisfyingAppend(Flatten(cs), Flatten(fs[1..]), p);
    }
  }

  /** `Tag.find(...)`: the first descendant of `f` (never `f` itself) that
      satisfies `p`, in document order. */
  function Find(f: Frag, p: Frag -> bool): (r: Option<Frag>)
    ensures r == FirstSatisfying(Descendants(f), p)
  {
    FindFirstIsFirstInDocumentOrder(Children(f), p);
    FindFirst(Children(f), p)
  }

  /** `Tag.find_all(...)`: every descendant of `f` satisfying `p`, in
      document order, each as often as it occurs. */
  function FindAll(f: Frag, p: Frag -> bool): (r: seq<Frag>)
    ensures IsSubsequence(r, Descendants(f))
    ensures forall k :: 0 <= k < |r| ==> p(r[k])
    ensures forall x :: multiset(r)[x] == if p(x) then multiset(Descendants(f))[x] else 0
  {
    Filter(Descendants(f), p)
  }

  /** The strings of the text nodes among `xs`, in order. */
  function Strings(xs: seq<Frag>): seq<string> {
    if xs == [] then []
    else (if xs[0].Text? then [xs[0].text] else []) + Strings(xs[1..])
  }

  /** `get_text()`: the text of `f` and all its descendants, concatenated. A
      text node's text is its own string. */
  function GetText(f: Frag): (r: string)
    ensures f.Text? ==> r == f.text
  {
    assert f.Text? ==> Concat(Strings(Flatten([f]))) == f.text by {
      if f.Text? {
        assert [f][1..] == [];
        assert Flatten([f]) == [f];
        assert Strings([f]) == [f.text] + Strings([]);
        assert Concat([f.text]) == f.text + Concat([]);
      }
    }
    Concat(Strings(Flatten([f])))
  }

  /** `get_text(strip=True)`: every string stripped, the blank ones dropped,
      the rest concatenated; the result has no space at either end, and a
      text node gives its own string stripped. */
  function GetTextStrip(f: Frag): (r: string)
    ensures NoEdgeSpace(r)
    ensures f.Text? ==> r == Strip(f.text)
  {
    var parts := StrippedNonBlank(Strings(Flatten([f])));
    ConcatNoEdgeSpace(parts);
    assert f.Text? ==> Concat(parts) == Strip(f.text) by {
      if f.Text? {
        assert Strings(Flatten([f])) == [f.text];
        StrippedNonBlankOne(f.text);
      }
    }
    Concat(parts)
  }

  lemma {:induction false} StringsAppend(a: seq<Frag>, b: seq<Frag>)
    ensures Strings(a + b) == Strings(a) + Strings(b)
  {
    if a == [] {
      assert a + b == b;
    } else {
      assert (a + b)[0] == a[0];
      assert (a + b)[1..] == a[1..] + b;
      StringsAppend(a[1..], b);
    }
  }

  /** A forest flattens tree by tree. */
  lemma FlattenCons(fs: seq<Frag>)
    requires fs != []
    ensures Flatten(fs) == Flatten([fs[0]]) + Flatten(fs[1..])
  {
    assert [fs[0]][1..] == [];
  }

  /** The text strings of an element are those of its children, in order. */
  lemma ElemStrings(f: Frag)
    requires f.Elem?
    ensures Strings(Flatten([f])) == Strings(Flatten(f.children))
  {
    assert [f][1..] == [];
    assert Flatten([f]) == [f] + Flatten(f.children) + Flatten([]);
    assert Flatten([f]) == [f] + Flatten(f.children);
    StringsAppend([f], Flatten(f.children));
    assert Strings([f]) == [] + Strings([]);
  }

  /** The texts of each tree of a forest, in order. */
  function TextsOf(fs: seq<Frag>, text: Frag -> string): (r: seq<string>)
    ensures |r| == |fs| && forall k :: 0 <= k < |fs| ==> r[k] == text(fs[k])
  {
    seq(|fs|, k requires 0 <= k < |fs| => text(fs[k]))
  }

  lemma TextsOfCons(fs: seq<Frag>, text: Frag -> string)
    requires fs != []
    ensures Concat(TextsOf(fs, text)) == text(fs[0]) + Concat(TextsOf(fs[1..], text))
  {
    assert TextsOf(fs, text) == [text(fs[0])] + TextsOf(fs[1..], text);
  }

  lemma {:induction false} ForestText(fs: seq<Frag>)
    ensures Concat(Strings(Flatten(fs))) == Concat(TextsOf(fs, GetText))
  {
    if fs != [] {
      var head := Strings(Flatten([fs[0]]));
      var tail := Strings(Flatten(fs[1..]));
      calc {
        Concat(Strings(Flatten(fs)));
        { FlattenCons(fs); StringsAppend(Flatten([fs[0]]), Flatten(fs[1..])); }
        Concat(head + tail);
        { ConcatAppend(head, tail); }
        Concat(head) + Concat(tail);
        { ForestText(fs[1..]); }
        GetText(fs[0]) + Concat(TextsOf(fs[1..], GetText));
        { TextsOfCons(fs, GetText); }
        Concat(TextsOf(fs, GetText));
      }
    }
  }

  lemma {:induction false} ForestTextStrip(fs: seq<Frag>)
    ensures Concat(StrippedNonBlank(Strings(Flatten(fs)))) == Concat(TextsOf(fs, GetTextStrip))
  {
    if fs != [] {
      var head := Strings(Flatten([fs[0]]));
      var tail := Strings(Flatten(fs[1..]));
      calc {
        Concat(StrippedNonBlank(Strings(Flatten(fs))));
        { FlattenCons(fs); StringsAppend(Flatten([fs[0]]), Flatten(fs[1..])); }
        Concat(StrippedNonBlank(head + tail));
        { StrippedNonBlankAppend(head, tail); }
        Concat(StrippedNonBlank(head) + StrippedNonBlank(tail));
        { ConcatAppend(StrippedNonBlank(head), StrippedNonBlank(tail)); }
        Concat(StrippedNonBlank(head)) + Concat(StrippedNonBlank(tail));
        { ForestTextStrip(fs[1..]); }
        GetTextStrip(fs[0]) + Concat(TextsOf(fs[1..], GetTextStrip));
        { TextsOfCons(fs, GetTextStrip); }
        Concat(TextsOf(fs, GetTextStrip));
      }
    }
  }

  /** `get_text()` of an element is its children's texts concatenated. */
  lemma GetTextOfElem(f: Frag)
    requires f.Elem?
    ensures GetText(f) == Concat(TextsOf(f.children, GetText))
  {
    ElemStrings(f);
    ForestText(f.children);
  }

  /** `get_text(strip=True)` of an element is its children's stripped texts
      concatenated: stripping works string by string, never across children. */
  lemma GetTextStripOfElem(f: Frag)
    requires f.Elem?
    ensures GetTextStrip(f) == Concat(TextsOf(f.children, GetTextStrip))
  {
    ElemStrings(f);
    ForestTextStrip(f.children);
  }
}

=== FILE: extractor.dfy ===
/**
 * Candidate extraction: from one product fragment, the item name and the
 * price, for Woolworths (`extract_woolworths_product`) and for Pak'nSave
 * (`extract_paknsave_product`). A rejected candidate is `None`.
 */
module Extractor {
  import opened Wrappers
  import opened TextOps
  import opened Dom
  import opened Prices
  import opened NameCleanup
  import opened Seqs

  /** One extracted product: the store label, the item name and the price text. */
  datatype Item = Item(store: string, itemName: string, price: string)

  const Woolworths: string := "Woolworths"
  const Paknsave: string := "Pak'nSave"

  /** Names shorter than this are rejected. */
  const MinNameLength: nat := 5

  /** A fallback text line must be longer than this. */
  const MinFallbackLine: nat := 10

  /** Some class value of the element contains one of `words`, ignoring case
      (a function given as `class_=` is tried on each class value). */
  predicate ClassMentions(f: Frag, words: seq<string>) {
    f.Elem? && exists c, w :: c in f.classes && w in words && Contains(Lower(c), w)
  }

  /** `find(['h2', 'h3', 'h4', 'a'], class_=<title, name or heading>)` */
  predicate IsTitledElem(f: Frag) {
    f.Elem? && f.tag in ["h2", "h3", "h4", "a"] && ClassMentions(f, ["title", "name", "heading"])
  }

  /** `find(['a'], href=True)` */
  predicate IsLink(f: Frag) {
    f.Elem? && f.tag == "a" && f.hasHref
  }

  /** `find(['h2', 'h3', 'h4'])` */
  predicate IsHeading(f: Frag) {
    f.Elem? && f.tag in ["h2", "h3", "h4"]
  }

  /** `find(['span', 'div'], class_=<price>)` */
  predicate IsPriceBlock(f: Frag) {
    f.Elem? && f.tag in ["span", "div"] && ClassMentions(f, ["price"])
  }

  /** The name element cascade shared by both stores: the first titled
      heading or link; failing any, the first link with an href; failing any,
      the first heading. A later stage is used only when every earlier stage
      found nothing anywhere below `f`. */
  function NameElement(f: Frag): (r: Option<Frag>)
    ensures r.Some? ==> r.value in Descendants(f)
    ensures r.None? <==> forall d :: d in Descendants(f) ==> !IsTitledElem(d) && !IsLink(d) && !IsHeading(d)
    ensures (exists d :: d in Descendants(f) && IsTitledElem(d)) ==> r == FirstSatisfying(Descendants(f), IsTitledElem)
    ensures r.Some? && !IsTitledElem(r.value) ==>
      (forall d :: d in Descendants(f) ==> !IsTitledElem(d)) && (IsLink(r.value) || IsHeading(r.value))
    ensures r.Some? && !IsTitledElem(r.value) && !IsLink(r.value) ==>
      (forall d :: d in Descendants(f) ==> !IsLink(d)) && r == FirstSatisfying(Descendants(f), IsHeading)
    ensures (forall d :: d in Descendants(f) ==> !IsTitledElem(d)) && (exists d :: d in Descendants(f) && IsLink(d)) ==>
      r == FirstSatisfying(Descendants(f), IsLink)
  {
    match Find(f, IsTitledElem)
    case Some(x) => Some(x)
    case None =>
      match Find(f, IsLink)
      case Some(x) => Some(x)
      case None => Find(f, IsHeading)
  }

  /** `name_elem.get_text(strip=True)` when a name element was found. */
  function StructuredName(f: Frag): (r: Option<string>)
    ensures r.None? <==> NameElement(f).None?
    ensures r.Some? ==> r.value == GetTextStrip(NameElement(f).value)
    ensures r.Some? ==> NoEdgeSpace(r.value)
  {
    match NameElement(f)
    case Some(e) => Some(GetTextStrip(e))
    case None => None
  }

  /** `name.lower() in ['special', 'sale', 'new']` */
  predicate IsGenericLabel(name: string) {
    Lower(name) in ["special", "sale", "new"]
  }

  /** The Woolworths condition for looking for a better name in the text lines:
      no name, a name shorter than 5, or a generic promotional label. */
  predicate NeedsFallback(name: Option<string>) {
    name.None? || |name.value| < MinNameLength || IsGenericLabel(name.value)
  }

  /** A text line that may stand in for the name. */
  predicate IsEggLine(line: string) {
    Contains(Lower(line), "egg") && |line| > MinFallbackLine
  }

  /** The Woolworths name before clean-up. The structured name stands unless
      it needs the fallback; then the first stripped, non-blank text line that
      mentions "egg" and is longer than 10 replaces it, if there is one. */
  function WoolworthsRawName(f: Frag): (r: Option<string>)
    ensures !NeedsFallback(StructuredName(f)) ==> r == StructuredName(f)
    ensures NeedsFallback(StructuredName(f)) && FirstSatisfying(Lines(GetText(f)), IsEggLine).Some? ==>
      r == FirstSatisfying(Lines(GetText(f)), IsEggLine)
    ensures NeedsFallback(StructuredName(f)) && (forall k :: 0 <= k < |Lines(GetText(f))| ==> !IsEggLine(Lines(GetText(f))[k])) ==>
      r == StructuredName(f)
    ensures r != StructuredName(f) ==>
      && NeedsFallback(StructuredName(f))
      && r.Some? && '\n' !in r.value
      && exists k :: 0 <= k < |Lines(GetText(f))| && Lines(GetText(f))[k] == r.value && IsEggLine(r.value)
                     && forall j :: 0 <= j < k ==> !IsEggLine(Lines(GetText(f))[j])
  {
    var s := StructuredName(f);
    if !NeedsFallback(s) then s
    else
      match FirstSatisfying(Lines(GetText(f)), IsEggLine)
      case Some(line) => Some(line)
      case None => s
  }

  /** `"$" + alt_patterns[0].replace('$', '')` when the primary pattern found
      nothing: the leftmost fallback match, which never holds a `$` here. */
  function FallbackPrice(text: string): (r: Option<string>)
    requires Tokens(text) == []
    ensures r.None? <==> forall p, e :: 0 <= p <= e <= |text| ==> !AltSpan(text, p, e)
    ensures r.Some? ==>
      exists p, e :: 0 <= p <= e <= |text| && DigitDotSpan(text, p, e) && r.value == "$" + text[p..e]
                     && forall q :: 0 <= q < p ==> AltMatchAt(text, q).None?
  {
    match AltSearch(text, 0)
    case Some(sp) =>
      FallbackNeverStartsWithDollar(text, sp.start, sp.end);
      DigitRunKeepsNoDollar(text, sp.start, sp.end);
      Some("$" + Without(text[sp.start..sp.end], {'$'}))
    case None =>
      NoFallbackMatch(text);
      None
  }

  lemma DigitRunKeepsNoDollar(text: string, p: int, e: int)
    requires DigitDotSpan(text, p, e)
    ensures Without(text[p..e], {'$'}) == text[p..e]
  {
    var m := text[p..e];
    assert forall k :: 0 <= k < |m| ==> m[k] == text[p + k];
  }

  lemma NoFallbackMatch(text: string)
    requires AltSearch(text, 0).None?
    ensures forall p, e :: 0 <= p <= e <= |text| ==> !AltSpan(text, p, e)
  {
    forall p, e | 0 <= p <= e <= |text| ensures !AltSpan(text, p, e) {
      if AltSpan(text, p, e) { AltMatchAtComplete(text, p, e); }
    }
  }

  /** The Woolworths price: among the primary matches, the first in the unit
      band, else the first; with no primary match, the fallback; with neither,
      no price at all (never an empty one). */
  function WoolworthsPrice(text: string): (r: Option<string>)
    ensures r.None? <==> NoPrice(text) && forall p, e :: 0 <= p <= e <= |text| ==> !AltSpan(text, p, e)
    ensures r.Some? ==> |r.value| >= 4 && r.value[0] == '$'
    ensures Tokens(text) != [] ==> r == ChooseUnitPrice(Tokens(text))
    ensures Tokens(text) == [] ==> r == FallbackPrice(text)
  {
    TokensEmpty(text);
    var toks := Tokens(text);
    if toks != [] then ChooseUnitPrice(toks) else FallbackPrice(text)
  }

  /** The Pak'nSave price: the first primary match in the whole text; failing
      that, the first primary match in the price element's stripped text. The
      final `$` check never rejects a price found this way. */
  function PaknsavePrice(text: string, elemText: Option<string>): (r: Option<string>)
    ensures Tokens(text) != [] ==> r == Some(Tokens(text)[0])
    ensures Tokens(text) == [] && elemText.Some? ==> r == FirstToken(elemText.value)
    ensures r.None? <==> Tokens(text) == [] && (elemText.None? || Tokens(elemText.value) == [])
    ensures r.Some? ==> IsPriceText(r.value) && '$' in r.value
  {
    var price :=
      if Tokens(text) != [] then Some(Tokens(text)[0])
      else if elemText.Some? then FirstToken(elemText.value)
      else None;
    assert price.Some? ==> IsPriceText(price.value);
    if price.Some? && '$' in price.value then price else None
  }

  /** `extract_woolworths_product`. A name shorter than 5 before clean-up, or
      a missing price, rejects the candidate; the name is not measured again
      after clean-up. */
  function ExtractWoolworths(f: Frag): (r: Option<Item>)
    ensures r.Some? <==>
      WoolworthsRawName(f).Some? && |WoolworthsRawName(f).value| >= MinNameLength && WoolworthsPrice(GetText(f)).Some?
    ensures r.Some? ==>
      && r.value.store == Woolworths
      && r.value.itemName == CleanWoolworthsName(WoolworthsRawName(f).value)
      && Some(r.value.price) == WoolworthsPrice(GetText(f))
      && |r.value.price| >= 4 && r.value.price[0] == '$'
  {
    var raw := WoolworthsRawName(f);
    if raw.None? || |raw.value| < MinNameLength then None
    else
      match WoolworthsPrice(GetText(f))
      case None => None
      case Some(p) => Some(Item(Woolworths, CleanWoolworthsName(raw.value), p))
  }

  /** The stripped text of the Pak'nSave price element: the first price
      block below `f`, else the element `dollarElem`, else none. */
  function PriceElemText(f: Frag, dollarElem: Option<Frag>): (r: Option<string>)
    ensures (exists d :: d in Descendants(f) && IsPriceBlock(d)) ==>
      r == Some(GetTextStrip(FirstSatisfying(Descendants(f), IsPriceBlock).value))
    ensures (forall d :: d in Descendants(f) ==> !IsPriceBlock(d)) ==>
      r == (if dollarElem.Some? then Some(GetTextStrip(dollarElem.value)) else None)
  {
    match Find(f, IsPriceBlock)
    case Some(x) => Some(GetTextStrip(x))
    case None =>
      match dollarElem
      case Some(x) => Some(GetTextStrip(x))
      case None => None
  }

  /** `extract_paknsave_product`. `dollarElem` stands for the element a
      `string=` search for a `$` would find, used when no price block is
      found. The name is measured after its clean-up. */
  function ExtractPaknsave(f: Frag, dollarElem: Option<Frag>): (r: Option<Item>)
    ensures r.None? <==>
      || StructuredName(f).None?
      || |CleanPaknsaveName(StructuredName(f).value)| < MinNameLength
      || PaknsavePrice(GetText(f), PriceElemText(f, dollarElem)).None?
    ensures r.Some? ==> Some(r.value.price) == PaknsavePrice(GetText(f), PriceElemText(f, dollarElem))
    ensures r.Some? ==>
      && r.value.store == Paknsave
      && r.value.itemName == CleanPaknsaveName(StructuredName(f).value)
      && |r.value.itemName| >= MinNameLength
      && IsPriceText(r.value.price) && '$' in r.value.price
    ensures r.Some? && Tokens(GetText(f)) != [] ==> r.value.price == Tokens(GetText(f))[0]
  {
    var s := StructuredName(f);
    assert s.Some? && s.value == [] ==> CleanPaknsaveName(s.value) == [];
    var name := if s.Some? && s.value != [] then Some(CleanPaknsaveName(s.value)) else s;
    if name.None? || |name.value| < MinNameLength then None
    else
      match PaknsavePrice(GetText(f), PriceElemText(f, dollarElem))
      case None => None
      case Some(p) => Some(Item(Paknsave, name.value, p))
  }
}

=== FILE: listing.dfy ===
/**
 * Listing selection and the per-source crawl (`crawl_woolworths`,
 * `crawl_paknsave`, `crawl_all`) with page loading taken out: a page is its
 * parsed root fragment, and a CSS selector is the function from a page to
 * the fragments it selects.
 */
module Listing {
  import opened Wrappers
  import opened TextOps
  import opened Dom
  import opened Extractor
  import opened Seqs

  /** A CSS selector, abstracted as what `soup.select` returns for it. */
  type Selector = Frag -> seq<Frag>

  /** At most this many candidates are extracted per source. */
  const MaxCandidates: nat := 30

  /** The fallback scan: `find_all(['div', 'article', 'li'], class_=<egg or product>)`. */
  predicate IsFallbackBlock(f: Frag) {
    f.Elem? && f.tag in ["div", "article", "li"] && ClassMentions(f, ["egg", "product"])
  }

  /** The selector has a non-empty result on the page. */
  function SelectsSome(page: Frag): Selector -> bool {
    (sel: Selector) => sel(page) != []
  }

  /** The candidates of a page: what the first selector with a non-empty
      result selects (not a union), or the fallback scan when every selector
      selects nothing. */
  function SelectCandidates(page: Frag, selectors: seq<Selector>): (r: seq<Frag>)
    ensures forall k :: 0 <= k < |selectors| && selectors[k](page) != [] && (forall j :: 0 <= j < k ==> selectors[j](page) == []) ==>
      r == selectors[k](page)
    ensures (forall k :: 0 <= k < |selectors| ==> selectors[k](page) == []) ==> r == FindAll(page, IsFallbackBlock)
  {
    match FirstIndex(selectors, SelectsSome(page), 0)
    case Some(k) => selectors[k](page)
    case None => FindAll(page, IsFallbackBlock)
  }

  /** Once selector k has a result, the selectors after it play no part. */
  lemma LaterSelectorsNeverConsulted(page: Frag, selectors: seq<Selector>, k: nat, others: seq<Selector>)
    requires k < |selectors| && selectors[k](page) != []
    requires forall j :: 0 <= j < k ==> selectors[j](page) == []
    ensures SelectCandidates(page, selectors) == SelectCandidates(page, selectors[..k + 1] + others)
  {
    var alt := selectors[..k + 1] + others;
    assert alt[k] == selectors[k];
    assert forall j :: 0 <= j < k ==> alt[j] == selectors[j];
  }

  /** `products[:30]`: the first candidates, in their order. */
  function Capped(cands: seq<Frag>): (r: seq<Frag>)
    ensures |r| <= MaxCandidates && |r| <= |cands| && r == cands[..|r|]
    ensures |cands| <= MaxCandidates ==> r == cands
    ensures |r| == if |cands| <= MaxCandidates then |cands| else MaxCandidates
  {
    if |cands| <= MaxCandidates then cands else cands[..MaxCandidates]
  }

  /** The accepted extractions of the candidates, in order. */
  function Extractions(cands: seq<Frag>, extract: Frag -> Option<Item>): (r: seq<Item>)
    ensures forall k :: 0 <= k < |r| ==> exists c :: c in cands && extract(c) == Some(r[k])
  {
    if cands == [] then []
    else
      var rest := Extractions(cands[1..], extract);
      assert forall k :: 0 <= k < |rest| ==> exists c :: c in cands && extract(c) == Some(rest[k]) by {
        forall k | 0 <= k < |rest| ensures exists c :: c in cands && extract(c) == Some(rest[k]) {
          var c :| c in cands[1..] && extract(c) == Some(rest[k]);
        }
      }
      match extract(cands[0])
      case Some(item) => [item] + rest
      case None => rest
  }

  /** Extraction works candidate by candidate, so it keeps their order. */
  lemma {:induction false} ExtractionsAppend(a: seq<Frag>, b: seq<Frag>, extract: Frag -> Option<Item>)
    ensures Extractions(a + b, extract) == Extractions(a, extract) + Extractions(b, extract)
  {
    if a == [] {
      assert a + b == b;
    } else {
      assert (a + b)[0] == a[0];
      assert (a + b)[1..] == a[1..] + b;
      ExtractionsAppend(a[1..], b, extract);
    }
  }

  /** One candidate yields its item when it is accepted, and nothing otherwise. */
  lemma ExtractionsOne(c: Frag, extract: Frag -> Option<Item>)
    ensures Extractions([c], extract) == if extract(c).Some? then [extract(c).value] else []
  {
    assert [c][1..] == [];
  }

  /** `'egg' in item['item_name'].lower()` */
  predicate MentionsEgg(item: Item) {
    Contains(Lower(item.itemName), "egg")
  }

  /** `kept` holds each item of `items` that mentions "egg" exactly as often
      as `items` does, and nothing else. */
  ghost predicate EggsKept(kept: seq<Item>, items: seq<Item>) {
    forall x :: multiset(kept)[x] == if MentionsEgg(x) then multiset(items)[x] else 0
  }

  /** The items that mention "egg", in order, each as often as it occurs. */
  function KeepEggs(items: seq<Item>): (r: seq<Item>)
    ensures IsSubsequence(r, items)
    ensures forall k :: 0 <= k < |r| ==> MentionsEgg(r[k])
    ensures EggsKept(r, items)
  {
    Filter(items, MentionsEgg)
  }

  /** One source's loop: extract each of the first 30 candidates and keep the
      accepted items whose name mentions "egg". */
  function CrawlSource(cands: seq<Frag>, extract: Frag -> Option<Item>): (r: seq<Item>)
    ensures IsSubsequence(r, Extractions(Capped(cands), extract))
    ensures forall k :: 0 <= k < |r| ==> MentionsEgg(r[k])
    ensures forall k :: 0 <= k < |r| ==> exists c :: c in Capped(cands) && extract(c) == Some(r[k])
    ensures forall c :: c in Capped(cands) && extract(c).Some? && MentionsEgg(extract(c).value) ==> extract(c).value in r
    ensures EggsKept(r, Extractions(Capped(cands), extract))
  {
    var xs := Extractions(Capped(cands), extract);
    assert forall c :: c in Capped(cands) && extract(c).Some? ==> extract(c).value in xs by {
      ExtractionsComplete(Capped(cands), extract);
    }
    FilterMembers(xs, MentionsEgg);
    KeepEggs(xs)
  }

  lemma {:induction false} ExtractionsComplete(cands: seq<Frag>, extract: Frag -> Option<Item>)
    ensures forall c :: c in cands && extract(c).Some? ==> extract(c).value in Extractions(cands, extract)
  {
    if cands != [] {
      ExtractionsComplete(cands[1..], extract);
      assert forall c :: c in cands ==> c == cands[0] || c in cands[1..];
    }
  }

  /** What every source's crawl keeps: at most 30 items, each labelled as its
      extractor labels items. */
  lemma CrawlSourceShape(cands: seq<Frag>, extract: Frag -> Option<Item>, storeName: string)
    requires forall c :: extract(c).Some? ==> extract(c).value.store == storeName
    ensures |CrawlSource(cands, extract)| <= MaxCandidates
    ensures forall k :: 0 <= k < |CrawlSource(cands, extract)| ==> CrawlSource(cands, extract)[k].store == storeName
  {
    var cs := Capped(cands);
    var r := CrawlSource(cands, extract);
    SubsequenceLength(r, Extractions(cs, extract));
    ExtractionsLength(cs, extract);
    forall k | 0 <= k < |r| ensures r[k].store == storeName {
      var c :| c in cs && extract(c) == Some(r[k]);
    }
  }

  lemma WoolworthsLabel()
    ensures forall c :: ExtractWoolworths(c).Some? ==> ExtractWoolworths(c).value.store == Woolworths
  {
  }

  lemma PaknsaveLabel(dollarElem: Frag -> Option<Frag>)
    ensures forall c :: PaknsaveExtractor(dollarElem)(c).Some? ==> PaknsaveExtractor(dollarElem)(c).value.store == Paknsave
  {
    forall c ensures PaknsaveExtractor(dollarElem)(c).Some? ==> PaknsaveExtractor(dollarElem)(c).value.store == Paknsave {
      assert PaknsaveExtractor(dollarElem)(c) == ExtractPaknsave(c, dollarElem(c));
    }
  }

  /** `crawl_woolworths` after the page is parsed. */
  function CrawlWoolworths(page: Frag, selectors: seq<Selector>): (r: seq<Item>)
    ensures |r| <= MaxCandidates
    ensures IsSubsequence(r, Extractions(Capped(SelectCandidates(page, selectors)), ExtractWoolworths))
    ensures EggsKept(r, Extractions(Capped(SelectCandidates(page, selectors)), ExtractWoolworths))
    ensures forall k :: 0 <= k < |r| ==> r[k].store == Woolworths && MentionsEgg(r[k])
  {
    WoolworthsLabel();
    CrawlSourceShape(SelectCandidates(page, selectors), ExtractWoolworths, Woolworths);
    CrawlSource(SelectCandidates(page, selectors), ExtractWoolworths)
  }

  /** The Pak'nSave extractor with the `string=` lookup supplied per candidate. */
  function PaknsaveExtractor(dollarElem: Frag -> Option<Frag>): Frag -> Option<Item> {
    f => ExtractPaknsave(f, dollarElem(f))
  }

  /** `crawl_paknsave` after the page is parsed. */
  function CrawlPaknsave(page: Frag, selectors: seq<Selector>, dollarElem: Frag -> Option<Frag>): (r: seq<Item>)
    ensures |r| <= MaxCandidates
    ensures IsSubsequence(r, Extractions(Capped(SelectCandidates(page, selectors)), PaknsaveExtractor(dollarElem)))
    ensures EggsKept(r, Extractions(Capped(SelectCandidates(page, selectors)), PaknsaveExtractor(dollarElem)))
    ensures forall k :: 0 <= k < |r| ==> r[k].store == Paknsave && MentionsEgg(r[k])
  {
    PaknsaveLabel(dollarElem);
    CrawlSourceShape(SelectCandidates(page, selectors), PaknsaveExtractor(dollarElem), Paknsave);
    CrawlSource(SelectCandidates(page, selectors), PaknsaveExtractor(dollarElem))
  }

  lemma {:induction false} ExtractionsLength(cands: seq<Frag>, extract: Frag -> Option<Item>)
    ensures |Extractions(cands, extract)| <= |cands|
  {
    if cands != [] {
      ExtractionsLength(cands[1..], extract);
    }
  }

  /** Joining the two sources' lists keeps every Woolworths item ahead of
      every Pak'nSave item. */
  lemma {:induction false} JoinKeepsSourceOrder(w: seq<Item>, p: seq<Item>)
    requires forall k :: 0 <= k < |w| ==> w[k].store == Woolworths && MentionsEgg(w[k])
    requires forall k :: 0 <= k < |p| ==> p[k].store == Paknsave && MentionsEgg(p[k])
    ensures forall k :: 0 <= k < |w + p| ==> ((w + p)[k].store == Woolworths || (w + p)[k].store == Paknsave) && MentionsEgg((w + p)[k])
    ensures forall i, j :: 0 <= i < j < |w + p| && (w + p)[j].store == Woolworths ==> (w + p)[i].store == Woolworths
    ensures (w + p)[..|w|] == w && (w + p)[|w|..] == p
  {
    var r := w + p;
    assert forall k :: |w| <= k < |r| ==> r[k] == p[k - |w|];
    assert forall k :: 0 <= k < |w| ==> r[k] == w[k];
    assert Woolworths != Paknsave by { assert Woolworths[0] != Paknsave[0]; }
    assert forall j :: |w| <= j < |r| ==> r[j].store != Woolworths;
  }

  /** `crawl_all`: the Woolworths items, then the Pak'nSave items. */
  function CrawlAll(wPage: Frag, wSelectors: seq<Selector>, pPage: Frag, pSelectors: seq<Selector>,
                    dollarElem: Frag -> Option<Frag>): (r: seq<Item>)
    ensures |r| <= 2 * MaxCandidates
    ensures forall k :: 0 <= k < |r| ==> (r[k].store == Woolworths || r[k].store == Paknsave) && MentionsEgg(r[k])
    ensures forall i, j :: 0 <= i < j < |r| && r[j].store == Woolworths ==> r[i].store == Woolworths
    ensures |CrawlWoolworths(wPage, wSelectors)| <= |r| && r[..|CrawlWoolworths(wPage, wSelectors)|] == CrawlWoolworths(wPage, wSelectors)
    ensures r[|CrawlWoolworths(wPage, wSelectors)|..] == CrawlPaknsave(pPage, pSelectors, dollarElem)
  {
    var w := CrawlWoolworths(wPage, wSelectors);
    var p := CrawlPaknsave(pPage, pSelectors, dollarElem);
    JoinKeepsSourceOrder(w, p);
    w + p
  }
}

=== FILE: name_cleanup.dfy ===
/**
 * Name clean-up rules. Woolworths runs four `re.sub(P + r'.*?$', '', name)`
 * rules and then strips; Pak'nSave runs one `re.sub(r'\s*-\s*\d+\s*$', '', name)`
 * and then strips.
 *
 * Without MULTILINE, `$` holds at the end of the string and just before a
 * newline that ends it, and `.` never crosses a newline. So `P.*?$` matches
 * at i exactly when P matches some s[i..e] and s[e..] holds no newline other
 * than a final one; the match then runs to the end (or to the final newline,
 * which survives). `re.sub` removes the leftmost such match, and no second
 * match can follow it.
 */
module NameCleanup {
  import opened Wrappers
  import opened TextOps
  import opened Prices

  // The Woolworths rules, in the order they run:
  //   PerUnitPrice  `\$[\d,]+\.?\d{2}\s*/.*?$`
  //   WasPrice      `\s*Was\s*\$[\d,]+\.?\d{2}.*?$`
  //   SavePrice     `\s*Save\s*\$[\d,]+\.?\d{2}.*?$`
  //   AnyPrice      `\s*\$[\d,]+\.?\d{2}.*?$`
  datatype Rule = PerUnitPrice | WasPrice | SavePrice | AnyPrice

  /** s[i..e] is, in full, a match of a word (`Was`, `Save`) between space
      runs, followed by a price. */
  predicate WordPriceSpan(s: string, i: int, e: int, word: string) {
    0 <= i <= e <= |s| &&
    exists j, k :: i <= j <= e && j <= k <= e && SpaceBetween(s, i, j) && OccursAt(s, j, word)
                   && j + |word| <= k && SpaceBetween(s, j + |word|, k) && PriceSpan(s, k, e)
  }

  /** s[i..e] is, in full, a match of the part of `rule` before `.*?$`. */
  predicate RuleSpan(rule: Rule, s: string, i: int, e: int) {
    && 0 <= i <= e <= |s|
    && match rule
       case PerUnitPrice =>
         && i < e && s[e - 1] == '/'
         && exists p :: i <= p < e && PriceSpan(s, i, p) && SpaceBetween(s, p, e - 1)
       case WasPrice => WordPriceSpan(s, i, e, "Was")
       case SavePrice => WordPriceSpan(s, i, e, "Save")
       case AnyPrice => exists j :: i <= j <= e && SpaceBetween(s, i, j) && PriceSpan(s, j, e)
  }

  /** `.*?$` can run from e to a place where `$` holds: every newline after e
      is the last character. */
  predicate TailReachesEnd(s: string, e: int)
    requires 0 <= e <= |s|
  {
    forall k :: e <= k < |s| && s[k] == '\n' ==> k == |s| - 1
  }

  /** The whole rule, `.*?$` included, matches at i. */
  predicate RuleMatchAt(rule: Rule, s: string, i: int) {
    exists e :: 0 <= i <= e <= |s| && RuleSpan(rule, s, i, e) && TailReachesEnd(s, e)
  }

  /** Where `re.sub` with `rule` finds its first match in s. */
  function RuleLeftmost(rule: Rule, s: string): (r: Option<nat>)
    ensures r.Some? ==> r.value <= |s| && RuleMatchAt(rule, s, r.value)
    ensures r.Some? ==> forall p :: 0 <= p < r.value ==> !RuleMatchAt(rule, s, p)
    ensures r.None? ==> forall p :: 0 <= p <= |s| ==> !RuleMatchAt(rule, s, p)
  {
    var at := (t: string, p: int) => RuleMatchAt(rule, t, p);
    assert forall p :: at(s, p) == RuleMatchAt(rule, s, p);
    Leftmost(s, 0, at)
  }

  function FinalNewline(s: string): string {
    if |s| > 0 && s[|s| - 1] == '\n' then "\n" else ""
  }

  /** `re.sub(rule, '', s)`. On a string without newlines the result is the
      prefix of s that ends where the rule first matches (all of s if it never
      does). */
  function Cut(rule: Rule, s: string): (r: string)
    ensures '\n' !in s ==> |r| <= |s| && r == s[..|r|]
    ensures '\n' !in s ==> forall p :: 0 <= p < |r| ==> !RuleMatchAt(rule, s, p)
    ensures '\n' !in s && |r| < |s| ==> RuleMatchAt(rule, s, |r|)
  {
    match RuleLeftmost(rule, s)
    case Some(i) => s[..i] + FinalNewline(s)
    case None => s
  }

  /** Every rule match contains a price match. */
  lemma RuleSpanHasPrice(rule: Rule, s: string, i: int, e: int)
    requires RuleSpan(rule, s, i, e)
    ensures exists a, b :: i <= a <= b <= e && PriceSpan(s, a, b)
  {
    match rule
    case PerUnitPrice =>
      var p :| i <= p < e && PriceSpan(s, i, p) && SpaceBetween(s, p, e - 1);
    case WasPrice =>
      var j, k :| i <= j <= e && j <= k <= e && SpaceBetween(s, i, j) && OccursAt(s, j, "Was")
                  && j + 3 <= k && SpaceBetween(s, j + 3, k) && PriceSpan(s, k, e);
    case SavePrice =>
      var j, k :| i <= j <= e && j <= k <= e && SpaceBetween(s, i, j) && OccursAt(s, j, "Save")
                  && j + 4 <= k && SpaceBetween(s, j + 4, k) && PriceSpan(s, k, e);
    case AnyPrice =>
      var j :| i <= j <= e && SpaceBetween(s, i, j) && PriceSpan(s, j, e);
  }

  lemma PriceSpanInPrefix(s: string, m: int, i: int, e: int)
    requires 0 <= m <= |s|
    requires PriceSpan(s[..m], i, e)
    ensures PriceSpan(s, i, e)
  {
    assert forall k :: i + 1 <= k < e - 2 ==> s[..m][k] == s[k];
  }

  lemma SpaceBetweenInPrefix(s: string, m: int, i: int, e: int)
    requires 0 <= i <= e <= m <= |s|
    requires SpaceBetween(s[..m], i, e)
    ensures SpaceBetween(s, i, e)
  {
    assert forall k :: i <= k < e ==> s[..m][k] == s[k];
  }

  lemma WordPriceSpanInPrefix(s: string, m: int, i: int, e: int, word: string)
    requires 0 <= m <= |s|
    requires WordPriceSpan(s[..m], i, e, word)
    ensures WordPriceSpan(s, i, e, word)
  {
    var t := s[..m];
    var j, k :| i <= j <= e && j <= k <= e && SpaceBetween(t, i, j) && OccursAt(t, j, word)
                && j + |word| <= k && SpaceBetween(t, j + |word|, k) && PriceSpan(t, k, e);
    SpaceBetweenInPrefix(s, m, i, j);
    SpaceBetweenInPrefix(s, m, j + |word|, k);
    PriceSpanInPrefix(s, m, k, e);
    assert t[j..j + |word|] == s[j..j + |word|];
  }

  /** A rule match inside a prefix of s is a rule match in s. */
  lemma RuleSpanInPrefix(rule: Rule, s: string, m: int, i: int, e: int)
    requires 0 <= m <= |s|
    requires RuleSpan(rule, s[..m], i, e)
    ensures RuleSpan(rule, s, i, e)
  {
    var t := s[..m];
    match rule
    case PerUnitPrice =>
      var p :| i <= p < e && PriceSpan(t, i, p) && SpaceBetween(t, p, e - 1);
      PriceSpanInPrefix(s, m, i, p);
      SpaceBetweenInPrefix(s, m, p, e - 1);
      assert t[e - 1] == s[e - 1];
    case WasPrice =>
      WordPriceSpanInPrefix(s, m, i, e, "Was");
    case SavePrice =>
      WordPriceSpanInPrefix(s, m, i, e, "Save");
    case AnyPrice =>
      var j :| i <= j <= e && SpaceBetween(t, i, j) && PriceSpan(t, j, e);
      SpaceBetweenInPrefix(s, m, i, j);
      PriceSpanInPrefix(s, m, j, e);
  }

  /** On a string without newlines, a rule finds nothing in its own output. */
  lemma CutLeavesNoMatch(rule: Rule, s: string)
    requires '\n' !in s
    ensures forall p :: !RuleMatchAt(rule, Cut(rule, s), p)
  {
    var r := Cut(rule, s);
    forall p | RuleMatchAt(rule, r, p)
      ensures false
    {
      var e :| 0 <= p <= e <= |r| && RuleSpan(rule, r, p, e) && TailReachesEnd(r, e);
      RuleSpanInPrefix(rule, s, |r|, p, e);
      RuleSpanHasPrice(rule, s, p, e);
      assert TailReachesEnd(s, e);
      assert RuleMatchAt(rule, s, p);
    }
  }

  /** A string with no price match is left alone by every rule. */
  lemma CutWithoutPrice(rule: Rule, s: string)
    requires NoPrice(s)
    ensures Cut(rule, s) == s
  {
    forall i, e | 0 <= i <= e <= |s| && RuleSpan(rule, s, i, e)
      ensures false
    {
      RuleSpanHasPrice(rule, s, i, e);
    }
  }

  /** One rule keeps a newline-free string newline-free and returns a prefix. */
  lemma CutPrefix(rule: Rule, s: string)
    requires '\n' !in s
    ensures Cut(rule, s) == s[..|Cut(rule, s)|]
    ensures '\n' !in Cut(rule, s)
  {
    var r := Cut(rule, s);
    assert forall k :: 0 <= k < |r| ==> r[k] == s[k];
  }

  /** The four Woolworths rules in order; on a newline-free name the result
      is a prefix of it. */
  function RuleCuts(name: string): (r: string)
    ensures '\n' !in name ==> |r| <= |name| && r == name[..|r|]
    ensures NoPrice(name) ==> r == name
  {
    var r1 := Cut(PerUnitPrice, name);
    var r2 := Cut(WasPrice, r1);
    var r3 := Cut(SavePrice, r2);
    var r4 := Cut(AnyPrice, r3);
    assert NoPrice(name) ==> r4 == name by {
      if NoPrice(name) {
        CutWithoutPrice(PerUnitPrice, name);
        CutWithoutPrice(WasPrice, name);
        CutWithoutPrice(SavePrice, name);
        CutWithoutPrice(AnyPrice, name);
      }
    }
    assert '\n' !in name ==> |r4| <= |name| && r4 == name[..|r4|] by {
      if '\n' !in name {
        CutPrefix(PerUnitPrice, name);
        CutPrefix(WasPrice, r1);
        PrefixOfPrefix(name, r1, r2);
        CutPrefix(SavePrice, r2);
        PrefixOfPrefix(name, r2, r3);
        CutPrefix(AnyPrice, r3);
        PrefixOfPrefix(name, r3, r4);
      }
    }
    r4
  }

  lemma PrefixOfPrefix(s: string, a: string, b: string)
    requires |a| <= |s| && a == s[..|a|]
    requires |b| <= |a| && b == a[..|b|]
    ensures |b| <= |s| && b == s[..|b|]
  {
  }

  /** The cleaned Woolworths name: the four rules in order, then `strip()`. */
  function CleanWoolworthsName(name: string): (r: string)
    ensures NoPrice(name) ==> r == Strip(name)
    ensures NoEdgeSpace(r)
    ensures exists a, b ::
      && 0 <= a <= b <= |RuleCuts(name)| && r == RuleCuts(name)[a..b]
      && SpaceBetween(RuleCuts(name), 0, a) && SpaceBetween(RuleCuts(name), b, |RuleCuts(name)|)
  {
    Strip(RuleCuts(name))
  }

  /** A price match inside a piece of s is a price match in s. */
  lemma PriceSpanInSlice(s: string, a: int, b: int, i: int, e: int)
    requires 0 <= a <= b <= |s|
    requires PriceSpan(s[a..b], i, e)
    ensures PriceSpan(s, a + i, a + e)
  {
    var t := s[a..b];
    assert forall k :: 0 <= k < |t| ==> t[k] == s[a + k];
    assert forall k :: i + 1 <= k < e - 2 ==> t[k] == s[a + k];
  }

  /** The result of the last rule holds no price match (newline-free input). */
  lemma LastCutHasNoPrice(s: string)
    requires '\n' !in s
    ensures NoPrice(Cut(AnyPrice, s))
  {
    var r := Cut(AnyPrice, s);
    CutLeavesNoMatch(AnyPrice, s);
    forall i, e | 0 <= i <= e <= |r|
      ensures !PriceSpan(r, i, e)
    {
      assert !RuleMatchAt(AnyPrice, r, i);
      assert TailReachesEnd(r, e);
      assert PriceSpan(r, i, e) ==> RuleSpan(AnyPrice, r, i, e);
    }
  }

  lemma StripOfPrefix(s: string, t: string)
    requires |t| <= |s| && t == s[..|t|]
    ensures exists a, b :: 0 <= a <= b <= |s| && Strip(t) == s[a..b]
  {
    var a, b :| 0 <= a <= b <= |t| && Strip(t) == t[a..b];
    assert t[a..b] == s[a..b];
  }

  /** The cleaned name is one contiguous piece of the raw name. */
  lemma CleanIsSubstring(name: string)
    requires '\n' !in name
    ensures exists a, b :: 0 <= a <= b <= |name| && CleanWoolworthsName(name) == name[a..b]
  {
    StripOfPrefix(name, RuleCuts(name));
  }

  /** The cleaned name holds no `\$[\d,]+\.?\d{2}` match. */
  lemma CleanHasNoPrice(name: string)
    requires '\n' !in name
    ensures NoPrice(CleanWoolworthsName(name))
  {
    var r4 := RuleCuts(name);
    var r3 := Cut(SavePrice, Cut(WasPrice, Cut(PerUnitPrice, name)));
    assert r4 == Cut(AnyPrice, r3);
    assert '\n' !in r3 by {
      CutPrefix(PerUnitPrice, name);
      CutPrefix(WasPrice, Cut(PerUnitPrice, name));
      CutPrefix(SavePrice, Cut(WasPrice, Cut(PerUnitPrice, name)));
    }
    LastCutHasNoPrice(r3);
    var r := Strip(r4);
    var a, b :| 0 <= a <= b <= |r4| && r == r4[a..b];
    forall i, e | 0 <= i <= e <= |r|
      ensures !PriceSpan(r, i, e)
    {
      if PriceSpan(r, i, e) {
        PriceSpanInSlice(r4, a, b, i, e);
      }
    }
  }

  /** Cleaning a cleaned name changes nothing. */
  lemma CleanIdempotent(name: string)
    requires '\n' !in name
    ensures CleanWoolworthsName(CleanWoolworthsName(name)) == CleanWoolworthsName(name)
  {
    var r := CleanWoolworthsName(name);
    CleanHasNoPrice(name);
    CutWithoutPrice(PerUnitPrice, r);
    CutWithoutPrice(WasPrice, r);
    CutWithoutPrice(SavePrice, r);
    CutWithoutPrice(AnyPrice, r);
    StripKeepsStripped(r);
  }

  /** s[i..] is, in full, a match of the Pak'nSave rule `\s*-\s*\d+\s*$`. The
      last `\s*` also takes a final newline, so a match always runs to the end. */
  predicate TrailAt(s: string, i: int) {
    0 <= i <= |s| &&
    exists j, k, m :: i <= j && j + 1 <= k < m <= |s| && SpaceBetween(s, i, j) && s[j] == '-'
                      && SpaceBetween(s, j + 1, k) && DigitsBetween(s, k, m) && SpaceBetween(s, m, |s|)
  }

  /** `re.sub(r'\s*-\s*\d+\s*$', '', s)`: s is cut where the trailing
      ` - <digits>` group first matches; only one such group goes. */
  function TrailCut(s: string): (r: string)
    ensures |r| <= |s| && r == s[..|r|]
    ensures forall p :: 0 <= p < |r| ==> !TrailAt(s, p)
    ensures |r| < |s| ==> TrailAt(s, |r|)
  {
    match Leftmost(s, 0, TrailAt)
    case Some(i) => s[..i]
    case None => s
  }

  /** The cleaned Pak'nSave name: the trailing rule, then `strip()`. */
  function CleanPaknsaveName(name: string): (r: string)
    ensures exists b ::
      && 0 <= b <= |name| && r == Strip(name[..b]) && (b == |name| || TrailAt(name, b))
      && forall p :: 0 <= p < b ==> !TrailAt(name, p)
    ensures forall p :: 0 <= p < |TrailCut(name)| ==> !TrailAt(name, p)
  {
    var t := TrailCut(name);
    assert name[..|t|] == t;
    Strip(t)
  }
}

=== FILE: prices.dfy ===
/**
 * Price recognition. The primary pattern is the regular expression
 * `\$[\d,]+\.?\d{2}`, applied with `re.findall` (leftmost, non-overlapping);
 * the fallback pattern is `[\$]?[\d]+\.[\d]{2}`. Both matchers are written
 * the way a backtracking regex engine runs them: a greedy character-class
 * run, then shorter and shorter runs until the tail of the pattern fits.
 * Amounts are integer cents, never floating point.
 */
module Prices {
  import opened Wrappers
  import opened TextOps
  import opened Seqs

  predicate IsDigitOrComma(c: char) {
    IsDigit(c) || c == ','
  }

  predicate DigitOrCommaBetween(s: string, lo: int, hi: int)
    requires 0 <= lo <= hi <= |s|
  {
    forall k :: lo <= k < hi ==> IsDigitOrComma(s[k])
  }

  predicate DigitsBetween(s: string, lo: int, hi: int)
    requires 0 <= lo <= hi <= |s|
  {
    forall k :: lo <= k < hi ==> IsDigit(s[k])
  }

  /** s[i..e] is, in full, a match of `\$[\d,]+\.?\d{2}`: a dollar sign, a
      non-empty run of digits and commas, an optional dot, two digits. */
  predicate PriceSpan(s: string, i: int, e: int) {
    && 0 <= i && i + 4 <= e <= |s|
    && s[i] == '$' && IsDigit(s[e - 2]) && IsDigit(s[e - 1])
    && (|| DigitOrCommaBetween(s, i + 1, e - 2)
        || (i + 5 <= e && s[e - 3] == '.' && DigitOrCommaBetween(s, i + 1, e - 3)))
  }

  /** `t` is, in full, a match of the primary pattern. */
  predicate IsPriceText(t: string) {
    PriceSpan(t, 0, |t|)
  }

  lemma PriceSpanText(s: string, i: int, e: int)
    requires PriceSpan(s, i, e)
    ensures IsPriceText(s[i..e])
  {
    var t := s[i..e];
    assert forall k :: 0 <= k < |t| ==> t[k] == s[i + k];
  }

  /** Two digits at j and j + 1. */
  predicate TwoDigitsAt(s: string, j: int) {
    0 <= j && j + 2 <= |s| && IsDigit(s[j]) && IsDigit(s[j + 1])
  }

  /** The tail `\.?\d{2}` of the primary pattern at j: the dot is tried first. */
  function OptDotTail(s: string, j: nat): (r: Option<nat>)
    ensures r.Some? ==> r.value <= |s|
  {
    if j < |s| && s[j] == '.' && TwoDigitsAt(s, j + 1) then Some(j + 3)
    else if TwoDigitsAt(s, j) then Some(j + 2)
    else None
  }

  /** The tail `\.\d{2}` of the fallback pattern at j. */
  function DotTail(s: string, j: nat): (r: Option<nat>)
    ensures r.Some? ==> r.value <= |s|
  {
    if j < |s| && s[j] == '.' && TwoDigitsAt(s, j + 1) then Some(j + 3) else None
  }

  /** The end of the longest run starting at p of characters satisfying `cls`. */
  function RunEnd(s: string, p: nat, cls: char -> bool): (r: nat)
    requires p <= |s|
    ensures p <= r <= |s|
    ensures forall k :: p <= k < r ==> cls(s[k])
    ensures r < |s| ==> !cls(s[r])
    decreases |s| - p
  {
    if p == |s| || !cls(s[p]) then p else RunEnd(s, p + 1, cls)
  }

  /** Backtracking over a greedy `+` run that starts at lo and may end at any
      of hi, hi - 1, ..., lo + 1: the first run end at which `tail` fits wins. */
  function Backtrack(s: string, lo: nat, hi: nat, tail: (string, nat) -> Option<nat>): (r: Option<nat>)
    requires lo <= hi <= |s|
    ensures r.Some? ==> exists j :: lo < j <= hi && tail(s, j) == r
    decreases hi
  {
    if hi <= lo then None
    else
      match tail(s, hi)
      case Some(e) => Some(e)
      case None => Backtrack(s, lo, hi - 1, tail)
  }

  /** If the tail fits at some run end j, backtracking succeeds, at j or later. */
  lemma {:induction false} BacktrackReaches(s: string, lo: nat, hi: nat, tail: (string, nat) -> Option<nat>, j: nat)
    requires lo < j <= hi <= |s|
    requires tail(s, j).Some?
    requires forall k :: 0 <= k && tail(s, k).Some? ==> tail(s, k).value >= k + 2
    ensures Backtrack(s, lo, hi, tail).Some?
    ensures Backtrack(s, lo, hi, tail).value >= j + 2
    decreases hi
  {
    if tail(s, hi).None? {
      BacktrackReaches(s, lo, hi - 1, tail, j);
    }
  }

  /** The primary pattern tried at position i: the end of the match, if any. */
  function PriceMatchAt(s: string, i: nat): (r: Option<nat>)
    requires i <= |s|
    ensures r.Some? ==> PriceSpan(s, i, r.value)
  {
    if i < |s| && s[i] == '$' then
      var hi := RunEnd(s, i + 1, IsDigitOrComma);
      var r := Backtrack(s, i + 1, hi, OptDotTail);
      assert r.Some? ==> PriceSpan(s, i, r.value) by {
        if r.Some? {
          var j :| i + 1 < j <= hi && OptDotTail(s, j) == r;
          assert DigitOrCommaBetween(s, i + 1, j);
        }
      }
      r
    else None
  }

  /** The engine's match at i is the longest of all the ways the primary
      pattern can match there; in particular, it finds one whenever one exists. */
  lemma PriceMatchAtLongest(s: string, i: nat, e: int)
    requires i <= |s|
    requires PriceSpan(s, i, e)
    ensures PriceMatchAt(s, i).Some?
    ensures e <= PriceMatchAt(s, i).value
  {
    var hi := RunEnd(s, i + 1, IsDigitOrComma);
    assert forall k :: 0 <= k && OptDotTail(s, k).Some? ==> OptDotTail(s, k).value >= k + 2;
    if DigitOrCommaBetween(s, i + 1, e - 2) {
      assert hi >= e - 2;
      assert OptDotTail(s, e - 2) == Some(e);
      BacktrackReaches(s, i + 1, hi, OptDotTail, e - 2);
    } else {
      assert !IsDigitOrComma(s[e - 3]);
      assert hi == e - 3;
      assert OptDotTail(s, e - 3) == Some(e);
    }
  }

  datatype Span = Span(start: nat, end: nat)

  /** The span list covers position p. */
  predicate Covers(spans: seq<Span>, p: int) {
    exists k :: 0 <= k < |spans| && spans[k].start <= p < spans[k].end
  }

  /** The findall properties of `r` as the spans a scan from `pos` finds in
      a text of length n, for the matcher `at` (the end of the match at a
      position, if any): each span is the match at its start; spans are left
      to right and do not overlap; every position where a match starts lies
      inside some span, so none is skipped. */
  predicate ScanShape(n: nat, pos: nat, r: seq<Span>, at: nat -> Option<nat>) {
    && (forall k :: 0 <= k < |r| ==> pos <= r[k].start < n && at(r[k].start) == Some(r[k].end))
    && (forall k :: 0 <= k < |r| - 1 ==> r[k].end <= r[k + 1].start)
    && (forall p :: pos <= p < n && at(p).Some? ==> Covers(r, p))
  }

  /** Every match ends after its start and within the text. */
  predicate Advances(n: nat, at: nat -> Option<nat>) {
    forall q :: 0 <= q <= n && at(q).Some? ==> q < at(q).value <= n
  }

  lemma ScanShapeCons(n: nat, pos: nat, e: nat, rest: seq<Span>, at: nat -> Option<nat>)
    requires pos < e <= n
    requires at(pos) == Some(e)
    requires ScanShape(n, e, rest, at)
    ensures ScanShape(n, pos, [Span(pos, e)] + rest, at)
  {
    var r := [Span(pos, e)] + rest;
    assert r[0] == Span(pos, e);
    assert forall k :: 0 < k < |r| ==> r[k] == rest[k - 1];
    forall p | pos <= p < n && at(p).Some?
      ensures Covers(r, p)
    {
      ConsCovers(pos, e, rest, p);
    }
  }

  lemma ConsCovers(pos: nat, e: nat, rest: seq<Span>, p: int)
    requires pos <= p
    requires p < e || Covers(rest, p)
    ensures Covers([Span(pos, e)] + rest, p)
  {
    var r := [Span(pos, e)] + rest;
    if p < e {
      assert r[0].start <= p < r[0].end;
    } else {
      var k :| 0 <= k < |rest| && rest[k].start <= p < rest[k].end;
      assert r[k + 1] == rest[k];
    }
  }

  /** The leftmost, non-overlapping scan of `re.findall` for any matcher. */
  function Scan(n: nat, pos: nat, at: nat -> Option<nat>): (r: seq<Span>)
    requires pos <= n && Advances(n, at)
    ensures ScanShape(n, pos, r, at)
    decreases n - pos
  {
    if pos == n then []
    else
      match at(pos)
      case None => Scan(n, pos + 1, at)
      case Some(e) =>
        var rest := Scan(n, e, at);
        ScanShapeCons(n, pos, e, rest, at);
        [Span(pos, e)] + rest
  }

  /** The engine's primary-pattern matcher on `s`, as a function of the
      position. */
  function PriceMatcher(s: string): (at: nat -> Option<nat>)
    ensures Advances(|s|, at)
    ensures forall q: nat :: q <= |s| ==> at(q) == PriceMatchAt(s, q)
  {
    (q: nat) => if q <= |s| then PriceMatchAt(s, q) else None
  }

  /** `re.findall` of the primary pattern on `s`: each span is the engine's
      match at its start; spans are left to right and do not overlap; and
      every position where a match could start lies inside some span. */
  function PriceSpans(s: string): (r: seq<Span>)
    ensures forall k :: 0 <= k < |r| ==> r[k].start < |s| && PriceMatchAt(s, r[k].start) == Some(r[k].end)
    ensures forall k :: 0 <= k < |r| - 1 ==> r[k].end <= r[k + 1].start
    ensures forall p :: 0 <= p < |s| && PriceMatchAt(s, p).Some? ==> Covers(r, p)
  {
    Scan(|s|, 0, PriceMatcher(s))
  }

  /** The primary pattern's matches in `text`, in order (`re.findall`). */
  function Tokens(text: string): (r: seq<string>)
    ensures |r| == |PriceSpans(text)|
    ensures forall k :: 0 <= k < |r| ==> r[k] == text[PriceSpans(text)[k].start..PriceSpans(text)[k].end]
    ensures forall k :: 0 <= k < |r| ==> IsPriceText(r[k])
  {
    var spans := PriceSpans(text);
    var r := seq(|spans|, k requires 0 <= k < |spans| => text[spans[k].start..spans[k].end]);
    assert forall k :: 0 <= k < |r| ==> IsPriceText(r[k]) by {
      forall k | 0 <= k < |r| ensures IsPriceText(r[k]) {
        PriceSpanText(text, spans[k].start, spans[k].end);
      }
    }
    r
  }

  /** s holds no match of the primary price pattern anywhere. */
  predicate NoPrice(s: string) {
    forall i, e :: 0 <= i <= e <= |s| ==> !PriceSpan(s, i, e)
  }

  /** findall returns nothing exactly when the text holds no match of the
      primary pattern anywhere. */
  lemma TokensEmpty(text: string)
    ensures Tokens(text) == [] <==> NoPrice(text)
  {
    var spans := PriceSpans(text);
    if spans != [] {
      assert PriceSpan(text, spans[0].start, spans[0].end);
    } else {
      forall i, e | 0 <= i <= e <= |text|
        ensures !PriceSpan(text, i, e)
      {
        if PriceSpan(text, i, e) {
          PriceMatchAtLongest(text, i, e);
        }
      }
    }
  }

  /** `re.search` with the primary pattern: the first findall token, and
      nothing when there is none. */
  function FirstToken(text: string): (r: Option<string>)
    ensures r.Some? ==> IsPriceText(r.value)
    ensures r.None? <==> Tokens(text) == []
    ensures r.Some? ==> r.value == Tokens(text)[0]
  {
    var toks := Tokens(text);
    if toks == [] then None else Some(toks[0])
  }

  /** The first token is the engine's match at the leftmost position where
      the pattern matches at all, as `re.search` finds it. */
  lemma FirstTokenIsLeftmost(text: string)
    requires FirstToken(text).Some?
    ensures exists i ::
      && 0 <= i < |text| && PriceMatchAt(text, i).Some?
      && FirstToken(text).value == text[i..PriceMatchAt(text, i).value]
      && forall q :: 0 <= q < i ==> PriceMatchAt(text, q).None?
  {
    var spans := PriceSpans(text);
    var i := spans[0].start;
    assert PriceMatchAt(text, i) == Some(spans[0].end);
    SpanStartsIncrease(text, spans);
    assert forall q :: 0 <= q < i ==> !Covers(spans, q);
  }

  /** Spans that do not overlap start in increasing order. */
  lemma SpanStartsIncrease(text: string, spans: seq<Span>)
    requires spans == PriceSpans(text)
    ensures forall k :: 0 <= k < |spans| ==> spans[0].start <= spans[k].start
  {
    forall k | 0 <= k < |spans| ensures spans[0].start <= spans[k].start {
      var j := 0;
      while j < k
        invariant 0 <= j <= k && spans[0].start <= spans[j].start
      {
        assert PriceSpan(text, spans[j].start, spans[j].end);
        j := j + 1;
      }
    }
  }

  /** Decimal value of the ASCII digits of `ds`. */
  function DigitsValue(ds: string): nat {
    if ds == [] then 0
    else
      var c := ds[|ds| - 1];
      DigitsValue(ds[..|ds| - 1]) * 10 + (if IsDigit(c) then c as int - '0' as int else 0)
  }

  /** `s` with every character of `drop` removed. */
  function Without(s: string, drop: set<char>): (r: string)
    ensures forall c :: c in r ==> c !in drop
    ensures (forall k :: 0 <= k < |s| ==> s[k] !in drop) ==> r == s
  {
    if s == [] then [] else (if s[0] in drop then [] else [s[0]]) + Without(s[1..], drop)
  }

  /** `float(p.replace('$', '').replace(',', ''))` for a token, in cents: a
      token with a dot is integer part times 100 plus its two decimals (an
      empty integer part reads as 0); one without a dot is an integer. */
  function Cents(token: string): (r: nat)
    ensures (forall k :: 0 <= k < |token| ==> token[k] != '.') ==> r % 100 == 0
  {
    var b := Amount(token);
    assert (forall k :: 0 <= k < |token| ==> token[k] != '.') ==> '.' !in b by {
      WithoutWithin(token, {'$', ','});
    }
    if |b| >= 3 && b[|b| - 3] == '.' then DigitsValue(b[..|b| - 3]) * 100 + DigitsValue(b[|b| - 2..])
    else DigitsValue(b) * 100
  }

  lemma {:induction false} WithoutAppend(a: string, b: string, drop: set<char>)
    ensures Without(a + b, drop) == Without(a, drop) + Without(b, drop)
  {
    if a == [] {
      assert a + b == b;
    } else {
      assert (a + b)[0] == a[0];
      assert (a + b)[1..] == a[1..] + b;
      WithoutAppend(a[1..], b, drop);
    }
  }

  /** The amount text of a token: the token with `$` and `,` removed. */
  function Amount(token: string): string {
    Without(token, {'$', ','})
  }

  lemma WithoutCons(c: char, x: string, drop: set<char>)
    ensures Without([c] + x, drop) == (if c in drop then [] else [c]) + Without(x, drop)
  {
    assert ([c] + x)[0] == c && ([c] + x)[1..] == x;
  }

  lemma {:induction false} WithoutWithin(s: string, drop: set<char>)
    ensures forall c :: c in Without(s, drop) ==> c in s
  {
    if s != [] {
      WithoutWithin(s[1..], drop);
    }
  }

  lemma AmountOfDotted(ds: string, cs: string)
    requires forall k :: 0 <= k < |ds| ==> IsDigitOrComma(ds[k])
    requires |cs| == 2 && IsDigit(cs[0]) && IsDigit(cs[1])
    ensures Amount("$" + ds + "." + cs) == Amount(ds) + "." + cs
  {
    var drop := {'$', ','};
    var tail := ['.'] + cs;
    calc {
      Amount("$" + ds + "." + cs);
    == { assert "$" + ds + "." + cs == ['$'] + (ds + tail); }
      Without(['$'] + (ds + tail), drop);
    == { WithoutCons('$', ds + tail, drop); }
      Without(ds + tail, drop);
    == { WithoutAppend(ds, tail, drop); }
      Without(ds, drop) + Without(tail, drop);
    == { WithoutCons('.', cs, drop); assert Without(cs, drop) == cs; }
      Amount(ds) + tail;
    }
  }

  /** A dotted token `$<digits and commas>.<two digits>` is worth its
      integer digits times 100 plus the two decimals. */
  lemma CentsOfDotted(ds: string, cs: string)
    requires forall k :: 0 <= k < |ds| ==> IsDigitOrComma(ds[k])
    requires |cs| == 2 && IsDigit(cs[0]) && IsDigit(cs[1])
    ensures Cents("$" + ds + "." + cs) == DigitsValue(Amount(ds)) * 100 + DigitsValue(cs)
  {
    AmountOfDotted(ds, cs);
    var b := Amount(ds) + "." + cs;
    assert b[|b| - 3] == '.';
    assert b[..|b| - 3] == Amount(ds);
    assert b[|b| - 2..] == cs;
  }

  /** A token without a dot is worth its digits times 100. */
  lemma CentsOfUndotted(ds: string)
    requires forall k :: 0 <= k < |ds| ==> IsDigitOrComma(ds[k])
    ensures Cents("$" + ds) == DigitsValue(Amount(ds)) * 100
  {
    assert "$" + ds == ['$'] + ds;
    WithoutCons('$', ds, {'$', ','});
    var b := Amount(ds);
    assert Amount("$" + ds) == b;
    WithoutWithin(ds, {'$', ','});
    if |b| >= 3 {
      assert b[|b| - 3] in b;
      var k :| 0 <= k < |ds| && ds[k] == b[|b| - 3];
      assert b[|b| - 3] != '.';
    }
  }

  /** The unit-price band 0.30 <= price <= 2.00, in cents. */
  const BandLow: nat := 30
  const BandHigh: nat := 200

  predicate InBand(token: string) {
    BandLow <= Cents(token) <= BandHigh
  }

  /** The Woolworths unit-price choice among the tokens: the first one in the
      band, otherwise the first one; nothing only when there are no tokens. */
  function ChooseUnitPrice(toks: seq<string>): (r: Option<string>)
    ensures |toks| == 0 <==> r.None?
    ensures r.Some? ==> r.value in toks
    ensures forall k :: 0 <= k < |toks| && InBand(toks[k]) && (forall j :: 0 <= j < k ==> !InBand(toks[j])) ==>
      r == Some(toks[k])
    ensures |toks| > 0 && (forall j :: 0 <= j < |toks| ==> !InBand(toks[j])) ==> r == Some(toks[0])
  {
    match FirstIndex(toks, InBand, 0)
    case Some(k) => Some(toks[k])
    case None => if toks == [] then None else Some(toks[0])
  }

  /** s[d..e] is, in full, a match of `\d+\.\d{2}`. */
  predicate DigitDotSpan(s: string, d: int, e: int) {
    && 0 <= d && d + 4 <= e <= |s|
    && DigitsBetween(s, d, e - 3) && s[e - 3] == '.' && IsDigit(s[e - 2]) && IsDigit(s[e - 1])
  }

  /** s[i..e] is, in full, a match of the fallback pattern `[\$]?[\d]+\.[\d]{2}`. */
  predicate AltSpan(s: string, i: int, e: int) {
    || (0 <= i < |s| && s[i] == '$' && DigitDotSpan(s, i + 1, e))
    || DigitDotSpan(s, i, e)
  }

  /** `\d+\.\d{2}` at d, by backtracking over the digit run. */
  function DigitDotAt(s: string, d: nat): (r: Option<nat>)
    requires d <= |s|
    ensures r.Some? ==> DigitDotSpan(s, d, r.value)
  {
    var hi := RunEnd(s, d, IsDigit);
    var r := Backtrack(s, d, hi, DotTail);
    assert r.Some? ==> DigitDotSpan(s, d, r.value) by {
      if r.Some? {
        var j :| d < j <= hi && DotTail(s, j) == r;
        assert DigitsBetween(s, d, j);
      }
    }
    r
  }

  /** The fallback pattern tried at i: the optional `$` is taken first. */
  function AltMatchAt(s: string, i: nat): (r: Option<nat>)
    requires i <= |s|
    ensures r.Some? ==> AltSpan(s, i, r.value)
  {
    if i < |s| && s[i] == '$' then
      match DigitDotAt(s, i + 1)
      case Some(e) => Some(e)
      case None => DigitDotAt(s, i)
    else DigitDotAt(s, i)
  }

  /** A fallback match at i has only one possible end, and the engine finds it. */
  lemma AltMatchAtComplete(s: string, i: nat, e: int)
    requires i <= |s|
    requires AltSpan(s, i, e)
    ensures AltMatchAt(s, i) == Some(e)
  {
    var d := if i < |s| && s[i] == '$' then i + 1 else i;
    assert DigitDotSpan(s, d, e);
    var hi := RunEnd(s, d, IsDigit);
    assert !IsDigit(s[e - 3]);
    assert hi == e - 3;
    assert DotTail(s, e - 3) == Some(e);
    assert DigitDotAt(s, d) == Some(e);
  }

  /** `re.search` with the fallback pattern from pos: the leftmost match. */
  function AltSearch(s: string, pos: nat): (r: Option<Span>)
    requires pos <= |s|
    ensures r.Some? ==> pos <= r.value.start && AltSpan(s, r.value.start, r.value.end)
    ensures r.Some? ==> forall p :: pos <= p < r.value.start ==> AltMatchAt(s, p).None?
    ensures r.None? ==> forall p :: pos <= p <= |s| ==> AltMatchAt(s, p).None?
  {
    var at := (t: string, p: int) => 0 <= p <= |t| && AltMatchAt(t, p).Some?;
    assert forall p :: 0 <= p <= |s| ==> (at(s, p) <==> AltMatchAt(s, p).Some?);
    match Leftmost(s, pos, at)
    case Some(i) => Some(Span(i, AltMatchAt(s, i).value))
    case None => None
  }

  /** When the primary pattern finds nothing, a fallback match never starts
      with `$`: such a match would also be a primary match. So on the path
      where the fallback is used, its optional `$` and the later removal of
      `$` never take effect. */
  lemma FallbackNeverStartsWithDollar(text: string, p: int, e: int)
    requires Tokens(text) == []
    requires AltSpan(text, p, e)
    ensures DigitDotSpan(text, p, e)
  {
    TokensEmpty(text);
    assert !PriceSpan(text, p, e);
    assert 0 <= p < |text| && text[p] == '$' && DigitDotSpan(text, p + 1, e) ==> PriceSpan(text, p, e);
  }
}

=== FILE: seqs.dfy ===
/**
 * Generic sequence searches the crawler uses in several places: the first
 * element that passes a test, the elements that pass it, and the
 * subsequence relation that says which order a selection keeps.
 */
module Seqs {
  import opened Wrappers

  /** The index of the first element at or after `from` that satisfies `p`. */
  function FirstIndex<T>(xs: seq<T>, p: T -> bool, from: nat): (r: Option<nat>)
    requires from <= |xs|
    ensures r.Some? ==> from <= r.value < |xs| && p(xs[r.value])
    ensures r.Some? ==> forall j :: from <= j < r.value ==> !p(xs[j])
    ensures r.None? <==> forall j :: from <= j < |xs| ==> !p(xs[j])
    decreases |xs| - from
  {
    if from == |xs| then None
    else if p(xs[from]) then Some(from)
    else FirstIndex(xs, p, from + 1)
  }

  /** The earliest element of `xs` that satisfies `p`. */
  function FirstSatisfying<T>(xs: seq<T>, p: T -> bool): (r: Option<T>)
    ensures r.None? <==> forall k :: 0 <= k < |xs| ==> !p(xs[k])
    ensures r.Some? ==>
      exists k :: 0 <= k < |xs| && xs[k] == r.value && p(xs[k]) && forall j :: 0 <= j < k ==> !p(xs[j])
  {
    match FirstIndex(xs, p, 0)
    case Some(k) => Some(xs[k])
    case None => None
  }

  lemma FirstSatisfyingAppend<T>(a: seq<T>, b: seq<T>, p: T -> bool)
    ensures FirstSatisfying(a + b, p) == if FirstSatisfying(a, p).Some? then FirstSatisfying(a, p) else FirstSatisfying(b, p)
  {
    var r := FirstSatisfying(a + b, p);
    if FirstSatisfying(a, p).Some? {
      var k :| 0 <= k < |a| && a[k] == FirstSatisfying(a, p).value && p(a[k]) && forall j :: 0 <= j < k ==> !p(a[j]);
      assert (a + b)[k] == a[k];
      assert forall j :: 0 <= j < k ==> (a + b)[j] == a[j];
      FirstIndexIs(a + b, p, k);
    } else if FirstSatisfying(b, p).Some? {
      var k :| 0 <= k < |b| && b[k] == FirstSatisfying(b, p).value && p(b[k]) && forall j :: 0 <= j < k ==> !p(b[j]);
      assert (a + b)[|a| + k] == b[k];
      assert forall j :: 0 <= j < |a| + k ==> !p((a + b)[j]) by {
        forall j | 0 <= j < |a| + k ensures !p((a + b)[j]) {
          if j >= |a| { assert (a + b)[j] == b[j - |a|]; } else { assert (a + b)[j] == a[j]; }
        }
      }
      FirstIndexIs(a + b, p, |a| + k);
    } else {
      assert forall j :: 0 <= j < |a + b| ==> !p((a + b)[j]) by {
        forall j | 0 <= j < |a + b| ensures !p((a + b)[j]) {
          if j >= |a| { assert (a + b)[j] == b[j - |a|]; } else { assert (a + b)[j] == a[j]; }
        }
      }
    }
  }

  /** The first satisfying element is the one at the first satisfying index. */
  lemma FirstIndexIs<T>(xs: seq<T>, p: T -> bool, k: nat)
    requires k < |xs| && p(xs[k]) && forall j :: 0 <= j < k ==> !p(xs[j])
    ensures FirstSatisfying(xs, p) == Some(xs[k])
  {
    assert FirstIndex(xs, p, 0) == Some(k);
  }

  /** `sub` is `xs` with some elements left out and the rest in their order. */
  predicate IsSubsequence<T(==)>(sub: seq<T>, xs: seq<T>) {
    if sub == [] then true
    else if xs == [] then false
    else (sub[0] == xs[0] && IsSubsequence(sub[1..], xs[1..])) || IsSubsequence(sub, xs[1..])
  }

  lemma {:induction false} SubsequenceLength<T>(sub: seq<T>, xs: seq<T>)
    requires IsSubsequence(sub, xs)
    ensures |sub| <= |xs|
  {
    if sub != [] {
      if sub[0] == xs[0] && IsSubsequence(sub[1..], xs[1..]) {
        SubsequenceLength(sub[1..], xs[1..]);
      } else {
        SubsequenceLength(sub, xs[1..]);
      }
    }
  }

  /** The elements of `xs` that satisfy `p`: a subsequence that holds every
      satisfying element as often as `xs` does, and nothing else. Together
      the clauses fix the result. */
  function Filter<T(==,!new)>(xs: seq<T>, p: T -> bool): (r: seq<T>)
    ensures IsSubsequence(r, xs)
    ensures forall k :: 0 <= k < |r| ==> p(r[k])
    ensures forall x :: multiset(r)[x] == if p(x) then multiset(xs)[x] else 0
  {
    if xs == [] then []
    else
      var rest := Filter(xs[1..], p);
      assert xs == [xs[0]] + xs[1..];
      assert multiset(xs) == multiset([xs[0]]) + multiset(xs[1..]);
      if p(xs[0]) then
        assert ([xs[0]] + rest)[1..] == rest;
        [xs[0]] + rest
      else
        assert rest == [] || IsSubsequence(rest, xs[1..]);
        rest
  }

  /** An element is kept exactly when it occurs and passes the test. */
  lemma FilterMembers<T(!new)>(xs: seq<T>, p: T -> bool)
    ensures forall x :: x in Filter(xs, p) <==> x in xs && p(x)
  {
    var r := Filter(xs, p);
    forall x ensures x in r <==> x in xs && p(x) {
      assert x in r <==> multiset(r)[x] > 0;
      assert x in xs <==> multiset(xs)[x] > 0;
    }
  }

  /** Filtering distributes over concatenation, so it keeps the order. */
  lemma {:induction false} FilterAppend<T(!new)>(a: seq<T>, b: seq<T>, p: T -> bool)
    ensures Filter(a + b, p) == Filter(a, p) + Filter(b, p)
  {
    if a == [] {
      assert a + b == b;
    } else {
      assert (a + b)[0] == a[0];
      assert (a + b)[1..] == a[1..] + b;
      FilterAppend(a[1..], b, p);
    }
  }

  /** A single element is kept exactly when it passes the test. */
  lemma FilterOne<T(!new)>(x: T, p: T -> bool)
    ensures Filter([x], p) == if p(x) then [x] else []
  {
    assert [x][1..] == [];
  }
}

=== FILE: text_ops.dfy ===
/**
 * The string primitives the crawler leans on: Python's whitespace test and
 * `str.strip()`, `str.lower()` (ASCII part), substring search, and
 * `str.split('\n')`, and the concatenation of a list of strings.
 */
module TextOps {
  import opened Wrappers
  import opened Seqs

  /** `str.isspace()` for one character, which is also what `\s` matches in a
      `str` pattern; listed by code point. */
  predicate IsSpace(c: char) {
    var n := c as int;
    || 9 <= n <= 13
    || 28 <= n <= 32
    || n == 0x85 || n == 0xA0 || n == 0x1680
    || 0x2000 <= n <= 0x200A
    || n == 0x2028 || n == 0x2029 || n == 0x202F || n == 0x205F || n == 0x3000
  }

  /** `\d`, restricted to the ASCII digits. */
  predicate IsDigit(c: char) {
    '0' <= c <= '9'
  }

  predicate SpaceBetween(s: string, lo: int, hi: int)
    requires 0 <= lo <= hi <= |s|
  {
    forall k :: lo <= k < hi ==> IsSpace(s[k])
  }

  /** The first index at or after `from` that does not hold a space, or |s|. */
  function SkipSpace(s: string, from: nat): (r: nat)
    requires from <= |s|
    ensures from <= r <= |s| && SpaceBetween(s, from, r)
    ensures r < |s| ==> !IsSpace(s[r])
    decreases |s| - from
  {
    if from == |s| || !IsSpace(s[from]) then from else SkipSpace(s, from + 1)
  }

  /** The least index `r` in [lo, hi] such that s[r..hi] is all spaces. */
  function TrimEnd(s: string, lo: nat, hi: nat): (r: nat)
    requires lo <= hi <= |s|
    ensures lo <= r <= hi && SpaceBetween(s, r, hi)
    ensures r > lo ==> !IsSpace(s[r - 1])
    decreases hi
  {
    if hi == lo || !IsSpace(s[hi - 1]) then hi else TrimEnd(s, lo, hi - 1)
  }

  /** Neither end of `s` is a space. */
  predicate NoEdgeSpace(s: string) {
    s == [] || (!IsSpace(s[0]) && !IsSpace(s[|s| - 1]))
  }

  /** `str.strip()`: the longest leading and trailing runs of spaces are cut. */
  function Strip(s: string): (r: string)
    ensures exists a, b :: 0 <= a <= b <= |s| && r == s[a..b] && SpaceBetween(s, 0, a) && SpaceBetween(s, b, |s|)
    ensures NoEdgeSpace(r)
  {
    var a := SkipSpace(s, 0);
    s[a..TrimEnd(s, a, |s|)]
  }

  /** Stripping a string that has no space at either end changes nothing. */
  lemma StripKeepsStripped(s: string)
    requires NoEdgeSpace(s)
    ensures Strip(s) == s
  {
    if s != [] {
      assert SkipSpace(s, 0) == 0;
      assert TrimEnd(s, 0, |s|) == |s|;
    }
  }

  /** Stripping twice is stripping once. */
  lemma StripIdempotent(s: string)
    ensures Strip(Strip(s)) == Strip(s)
  {
    StripKeepsStripped(Strip(s));
  }

  /** A character absent from `s` is absent from `Strip(s)`. */
  lemma StripKeepsOut(s: string, c: char)
    requires c !in s
    ensures c !in Strip(s)
  {
    var a, b :| 0 <= a <= b <= |s| && Strip(s) == s[a..b];
    assert forall k :: 0 <= k < b - a ==> s[a..b][k] == s[a + k];
  }

  function LowerChar(c: char): char {
    if 'A' <= c <= 'Z' then (c as int + 32) as char else c
  }

  /** `str.lower()` on the ASCII letters; every other character is kept. */
  function Lower(s: string): (r: string)
    ensures |r| == |s|
    ensures forall k :: 0 <= k < |s| ==> r[k] == LowerChar(s[k])
  {
    seq(|s|, k requires 0 <= k < |s| => LowerChar(s[k]))
  }

  /** The leftmost position at or after `from` where `matchAt` holds: the
      position at which `re.sub` and `re.search` find their first match. */
  function Leftmost(s: string, from: nat, matchAt: (string, int) -> bool): (r: Option<nat>)
    requires from <= |s|
    ensures r.Some? ==> from <= r.value <= |s| && matchAt(s, r.value)
    ensures r.Some? ==> forall p :: from <= p < r.value ==> !matchAt(s, p)
    ensures r.None? ==> forall p :: from <= p <= |s| ==> !matchAt(s, p)
    decreases |s| - from
  {
    if matchAt(s, from) then Some(from)
    else if from == |s| then None
    else Leftmost(s, from + 1, matchAt)
  }

  predicate OccursAt(s: string, i: int, sub: string) {
    0 <= i && i + |sub| <= |s| && s[i..i + |sub|] == sub
  }

  /** Python's `sub in s`. */
  predicate Contains(s: string, sub: string) {
    exists i :: 0 <= i <= |s| && OccursAt(s, i, sub)
  }

  /** The first index at or after `from` holding `c`, or |s|. */
  function IndexOf(s: string, c: char, from: nat): (r: nat)
    requires from <= |s|
    ensures from <= r <= |s|
    ensures forall k :: from <= k < r ==> s[k] != c
    ensures r < |s| ==> s[r] == c
    decreases |s| - from
  {
    if from == |s| || s[from] == c then from else IndexOf(s, c, from + 1)
  }

  /** The inverse of `SplitOn`: the parts glued back with `sep` between them. */
  function JoinWith(parts: seq<string>, sep: char): string {
    if parts == [] then []
    else if |parts| == 1 then parts[0]
    else parts[0] + [sep] + JoinWith(parts[1..], sep)
  }

  /** `s.split(sep)` for a one-character separator: at least one part, no part
      holds `sep`, and joining the parts with `sep` gives `s` back. */
  function SplitOn(s: string, sep: char): (r: seq<string>)
    ensures |r| >= 1
    ensures forall k :: 0 <= k < |r| ==> sep !in r[k]
    ensures JoinWith(r, sep) == s
    decreases |s|
  {
    var i := IndexOf(s, sep, 0);
    if i == |s| then [s]
    else
      var rest := SplitOn(s[i + 1..], sep);
      assert s == s[..i] + [sep] + s[i + 1..];
      [s[..i]] + rest
  }

  /** Every piece stripped, in order. */
  function StripAll(pieces: seq<string>): (r: seq<string>)
    ensures |r| == |pieces| && forall k :: 0 <= k < |r| ==> r[k] == Strip(pieces[k])
  {
    seq(|pieces|, k requires 0 <= k < |pieces| => Strip(pieces[k]))
  }

  predicate NonBlank(s: string) {
    s != []
  }

  /** `[p.strip() for p in pieces if p.strip()]`: the stripped pieces in
      their order, each non-empty one kept as often as it occurs and the
      empty ones dropped. */
  function StrippedNonBlank(pieces: seq<string>): (r: seq<string>)
    ensures IsSubsequence(r, StripAll(pieces))
    ensures forall x :: multiset(r)[x] == if x != [] then multiset(StripAll(pieces))[x] else 0
    ensures forall k :: 0 <= k < |r| ==> r[k] != [] && NoEdgeSpace(r[k])
    ensures forall k :: 0 <= k < |r| ==> exists j :: 0 <= j < |pieces| && r[k] == Strip(pieces[j])
  {
    var all := StripAll(pieces);
    var r := Filter(all, NonBlank);
    assert forall k :: 0 <= k < |r| ==> r[k] in all by {
      forall k | 0 <= k < |r| ensures r[k] in all {
        assert r[k] in multiset(r);
      }
    }
    r
  }

  /** The comprehension distributes over concatenation of the pieces. */
  lemma StrippedNonBlankAppend(a: seq<string>, b: seq<string>)
    ensures StrippedNonBlank(a + b) == StrippedNonBlank(a) + StrippedNonBlank(b)
  {
    assert StripAll(a + b) == StripAll(a) + StripAll(b);
    FilterAppend(StripAll(a), StripAll(b), NonBlank);
  }

  /** One piece yields its stripped text, or nothing when that is empty. */
  lemma StrippedNonBlankOne(x: string)
    ensures StrippedNonBlank([x]) == if Strip(x) == [] then [] else [Strip(x)]
  {
    assert StripAll([x]) == [Strip(x)];
    FilterOne(Strip(x), NonBlank);
  }

  /** The non-blank lines of `text`, each stripped: none holds a newline. */
  function Lines(text: string): (r: seq<string>)
    ensures forall k :: 0 <= k < |r| ==> r[k] != [] && NoEdgeSpace(r[k]) && '\n' !in r[k]
  {
    var pieces := SplitOn(text, '\n');
    var r := StrippedNonBlank(pieces);
    assert forall k :: 0 <= k < |r| ==> '\n' !in r[k] by {
      forall k | 0 <= k < |r|
        ensures '\n' !in r[k]
      {
        var j :| 0 <= j < |pieces| && r[k] == Strip(pieces[j]);
        StripKeepsOut(pieces[j], '\n');
      }
    }
    r
  }

  /** Splitting undoes joining: parts free of the separator come back as
      they were. */
  lemma {:induction false} SplitOnJoin(parts: seq<string>, sep: char)
    requires |parts| >= 1
    requires forall k :: 0 <= k < |parts| ==> sep !in parts[k]
    ensures SplitOn(JoinWith(parts, sep), sep) == parts
  {
    var s := JoinWith(parts, sep);
    var p0 := parts[0];
    if |parts| == 1 {
      assert IndexOf(s, sep, 0) == |s|;
    } else {
      assert s == p0 + [sep] + JoinWith(parts[1..], sep);
      assert s[|p0|] == sep;
      assert forall k :: 0 <= k < |p0| ==> s[k] == p0[k];
      assert IndexOf(s, sep, 0) == |p0|;
      assert s[..|p0|] == p0;
      assert s[|p0| + 1..] == JoinWith(parts[1..], sep);
      SplitOnJoin(parts[1..], sep);
      assert parts == [p0] + parts[1..];
    }
  }

  /** The lines of a text written as newline-free lines joined by newlines
      are those lines, stripped, with the blank ones dropped. */
  lemma LinesOfJoin(lines: seq<string>)
    requires |lines| >= 1
    requires forall k :: 0 <= k < |lines| ==> '\n' !in lines[k]
    ensures Lines(JoinWith(lines, '\n')) == StrippedNonBlank(lines)
  {
    SplitOnJoin(lines, '\n');
  }

  /** `"".join(parts)`. */
  function Concat(parts: seq<string>): string {
    if parts == [] then [] else parts[0] + Concat(parts[1..])
  }

  lemma {:induction false} ConcatAppend(a: seq<string>, b: seq<string>)
    ensures Concat(a + b) == Concat(a) + Concat(b)
  {
    if a == [] {
      assert a + b == b;
    } else {
      assert (a + b)[0] == a[0];
      assert (a + b)[1..] == a[1..] + b;
      ConcatAppend(a[1..], b);
    }
  }

  /** Gluing strings that are each non-empty and free of edge spaces gives a
      string free of edge spaces. */
  lemma {:induction false} ConcatNoEdgeSpace(parts: seq<string>)
    requires forall k :: 0 <= k < |parts| ==> parts[k] != [] && NoEdgeSpace(parts[k])
    ensures NoEdgeSpace(Concat(parts))
  {
    if parts != [] {
      ConcatNoEdgeSpace(parts[1..]);
      var rest := Concat(parts[1..]);
      assert Concat(parts) == parts[0] + rest;
      if rest != [] {
        assert Concat(parts)[|Concat(parts)| - 1] == rest[|rest| - 1];
      }
    }
  }
}

=== FILE: upsert.dfy ===
/**
 * Upload of the crawl results to the document store (`upload_to_firebase`).
 * The store is a map from document id to record. The document id is the
 * hex MD5 of the normalised id string; MD5 is a parameter `digest`, so the
 * properties below hold for any digest, and where two items must map to the
 * same document it is because their id strings are equal.
 */
module Upsert {
  import opened Wrappers
  import opened TextOps
  import opened Extractor

  /** A clock reading. The client clock (`datetime.now()`, read once per
      upload) and the server timestamp are parameters. */
  type Time = int

  /** A stored document. `createdAt` is `None` for a document written
      without that field. */
  datatype Record = Record(store: string, itemName: string, price: string,
                           lastCrawlDate: Time, lastCrawlTimestamp: Time, createdAt: Option<Time>)

  /** The store after an upload, with the counts of created and updated
      documents. */
  datatype Outcome<K> = Outcome(db: map<K, Record>, created: nat, updated: nat)

  /** The id string: store and name joined by "_", lower-cased, stripped. */
  function IdString(p: Item): (r: string)
    ensures var j := Lower(p.store + "_" + p.itemName);
      exists a, b :: 0 <= a <= b <= |j| && r == j[a..b] && SpaceBetween(j, 0, a) && SpaceBetween(j, b, |j|)
    ensures NoEdgeSpace(r)
    ensures forall k :: 0 <= k < |r| ==> !('A' <= r[k] <= 'Z')
  {
    var joined := Lower(p.store + "_" + p.itemName);
    var r := Strip(joined);
    assert forall k :: 0 <= k < |r| ==> r[k] in joined;
    r
  }

  /** Items whose store and name differ only in ASCII case share one id
      string, and so one document. */
  lemma IdIgnoresCase(p: Item, q: Item)
    requires Lower(p.store) == Lower(q.store) && Lower(p.itemName) == Lower(q.itemName)
    ensures IdString(p) == IdString(q)
  {
    LowerAppend(p.store + "_", p.itemName);
    LowerAppend(p.store, "_");
    LowerAppend(q.store + "_", q.itemName);
    LowerAppend(q.store, "_");
  }

  lemma LowerAppend(a: string, b: string)
    ensures Lower(a + b) == Lower(a) + Lower(b)
  {
    assert forall k :: 0 <= k < |a| ==> (a + b)[k] == a[k];
    assert forall k :: |a| <= k < |a + b| ==> (a + b)[k] == b[k - |a|];
  }

  /** The document id of an item: the digest of its id string. The upload
      loop below is stated for any id function. */
  function DocIdOf<K>(digest: string -> K): (r: Item -> K)
    ensures forall p, q :: IdString(p) == IdString(q) ==> r(p) == r(q)
  {
    p => digest(IdString(p))
  }
  /** The ids of all documents a batch writes. */
  function BatchIds<K>(items: seq<Item>, docId: Item -> K): (r: set<K>)
    ensures forall j :: 0 <= j < |items| ==> docId(items[j]) in r
    decreases |items|
  {
    if items == [] then {}
    else
      var init := items[..|items| - 1];
      assert forall j :: 0 <= j < |init| ==> init[j] == items[j];
      BatchIds(init, docId) + {docId(items[|items| - 1])}
  }

  /** Every batch id is the id of one of the batch's items. */
  lemma {:induction false} BatchIdsAreItemIds<K>(items: seq<Item>, docId: Item -> K, k: K)
    requires k in BatchIds(items, docId)
    ensures exists j :: 0 <= j < |items| && docId(items[j]) == k
    decreases |items|
  {
    var init := items[..|items| - 1];
    if k !in BatchIds(init, docId) {
      assert docId(items[|items| - 1]) == k;
    } else {
      BatchIdsAreItemIds(init, docId, k);
      var j :| 0 <= j < |init| && docId(init[j]) == k;
      assert items[j] == init[j];
    }
  }

  /** The `created_at` a written document ends up with when `prior` is what
      the store held before (if anything): kept when present, else the
      server timestamp. */
  function CreatedAtAfter(prior: Option<Record>, serverTime: Time): Option<Time> {
    if prior.Some? && prior.value.createdAt.Some? then prior.value.createdAt else Some(serverTime)
  }

  /** The document written for an item. */
  function Written(p: Item, crawlDate: Time, serverTime: Time, createdAt: Option<Time>): Record {
    Record(p.store, p.itemName, p.price, crawlDate, serverTime, createdAt)
  }

  function Lookup<K>(db: map<K, Record>, k: K): Option<Record> {
    if k in db then Some(db[k]) else None
  }

  /** One loop iteration: update the existing document, or create it. */
  function Step<K>(o: Outcome<K>, p: Item, crawlDate: Time, serverTime: Time, docId: Item -> K): (r: Outcome<K>)
    ensures r.db.Keys == o.db.Keys + {docId(p)}
    ensures r.db[docId(p)] == Written(p, crawlDate, serverTime, CreatedAtAfter(Lookup(o.db, docId(p)), serverTime))
    ensures forall k :: k in o.db && k != docId(p) ==> r.db[k] == o.db[k]
    ensures docId(p) in o.db ==> r.created == o.created && r.updated == o.updated + 1
    ensures docId(p) !in o.db ==> r.created == o.created + 1 && r.updated == o.updated
  {
    var k := docId(p);
    if k in o.db then
      var createdAt := if o.db[k].createdAt.Some? then o.db[k].createdAt else Some(serverTime);
      Outcome(o.db[k := Written(p, crawlDate, serverTime, createdAt)], o.created, o.updated + 1)
    else
      Outcome(o.db[k := Written(p, crawlDate, serverTime, Some(serverTime))], o.created + 1, o.updated)
  }

  /** The loop over the results, in order. */
  function Batch<K>(db: map<K, Record>, items: seq<Item>, crawlDate: Time, serverTime: Time, docId: Item -> K): (r: Outcome<K>)
    ensures r.created + r.updated == |items|
    ensures r.db.Keys == db.Keys + BatchIds(items, docId)
    ensures forall k :: k in db && k !in BatchIds(items, docId) ==> r.db[k] == db[k]
    ensures forall k :: k in BatchIds(items, docId) ==> r.db[k].createdAt == CreatedAtAfter(Lookup(db, k), serverTime)
    decreases |items|
  {
    if items == [] then Outcome(db, 0, 0)
    else Step(Batch(db, items[..|items| - 1], crawlDate, serverTime, docId), items[|items| - 1], crawlDate, serverTime, docId)
  }

  /** The number of documents created is the number of distinct ids in the
      batch that the store did not hold: an id repeated within one batch is
      created once and then updated. */
  lemma {:induction false} CreatedCountsNewIds<K>(db: map<K, Record>, items: seq<Item>, crawlDate: Time, serverTime: Time, docId: Item -> K)
    ensures Batch(db, items, crawlDate, serverTime, docId).created == |BatchIds(items, docId) - db.Keys|
    decreases |items|
  {
    if items != [] {
      var init := items[..|items| - 1];
      var k := docId(items[|items| - 1]);
      CreatedCountsNewIds(db, init, crawlDate, serverTime, docId);
      NewIdsSnoc(db.Keys, BatchIds(init, docId), k);
    }
  }

  lemma NewIdsSnoc<K>(keys: set<K>, ids: set<K>, k: K)
    ensures k in keys + ids ==> |(ids + {k}) - keys| == |ids - keys|
    ensures k !in keys + ids ==> |(ids + {k}) - keys| == |ids - keys| + 1
  {
    if k in keys + ids {
      assert (ids + {k}) - keys == ids - keys;
    } else {
      assert (ids + {k}) - keys == (ids - keys) + {k};
    }
  }

  /** The last item written to a document decides its contents. */
  lemma {:induction false} LastWriteWins<K>(db: map<K, Record>, items: seq<Item>, crawlDate: Time, serverTime: Time, docId: Item -> K, i: nat)
    requires i < |items|
    requires forall j :: i < j < |items| ==> docId(items[j]) != docId(items[i])
    ensures Batch(db, items, crawlDate, serverTime, docId).db[docId(items[i])]
         == Written(items[i], crawlDate, serverTime, CreatedAtAfter(Lookup(db, docId(items[i])), serverTime))
    decreases |items|
  {
    var init := items[..|items| - 1];
    if i < |items| - 1 {
      assert init[i] == items[i];
      assert forall j :: i < j < |init| ==> init[j] == items[j];
      LastWriteWins(db, init, crawlDate, serverTime, docId, i);
    }
  }

  /** Every document the batch writes holds the last item with its id. */
  lemma BatchContents<K>(db: map<K, Record>, items: seq<Item>, crawlDate: Time, serverTime: Time, docId: Item -> K)
    ensures forall k :: k in BatchIds(items, docId) ==>
      Batch(db, items, crawlDate, serverTime, docId).db[k]
        == Written(items[LastIndexOf(items, k, docId)], crawlDate, serverTime, CreatedAtAfter(Lookup(db, k), serverTime))
  {
    forall k | k in BatchIds(items, docId)
      ensures Batch(db, items, crawlDate, serverTime, docId).db[k]
        == Written(items[LastIndexOf(items, k, docId)], crawlDate, serverTime, CreatedAtAfter(Lookup(db, k), serverTime))
    {
      LastWriteWins(db, items, crawlDate, serverTime, docId, LastIndexOf(items, k, docId));
    }
  }

  /** `upload_to_firebase`: nothing happens and 0 is returned when the store
      is not initialised or there are no results; otherwise every result is
      written and the count of created plus updated documents is returned. */
  function Upload<K>(initialised: bool, results: seq<Item>, db: map<K, Record>, crawlDate: Time, serverTime: Time,
                     digest: string -> K): (r: (nat, map<K, Record>))
    ensures !initialised || results == [] ==> r == (0, db)
    ensures initialised ==> r.0 == |results|
    ensures initialised ==> r.1.Keys == db.Keys + BatchIds(results, DocIdOf(digest))
    ensures forall k :: k in db && k !in BatchIds(results, DocIdOf(digest)) ==> k in r.1 && r.1[k] == db[k]
    ensures initialised && results != [] ==> r.1 == Batch(db, results, crawlDate, serverTime, DocIdOf(digest)).db
    ensures initialised ==> forall k :: k in BatchIds(results, DocIdOf(digest)) ==>
      r.1[k] == Written(results[LastIndexOf(results, k, DocIdOf(digest))], crawlDate, serverTime,
                        CreatedAtAfter(Lookup(db, k), serverTime))
  {
    if !initialised || results == [] then (0, db)
    else
      var o := Batch(db, results, crawlDate, serverTime, DocIdOf(digest));
      BatchContents(db, results, crawlDate, serverTime, DocIdOf(digest));
      (o.created + o.updated, o.db)
  }

  /** Uploading the same results again creates no document. */
  lemma RerunCreatesNothing<K>(db: map<K, Record>, items: seq<Item>, crawlDate: Time, serverTime: Time,
                               crawlDate2: Time, serverTime2: Time, docId: Item -> K)
    ensures Batch(Batch(db, items, crawlDate, serverTime, docId).db, items, crawlDate2, serverTime2, docId).created == 0
  {
    var once := Batch(db, items, crawlDate, serverTime, docId);
    CreatedCountsNewIds(once.db, items, crawlDate2, serverTime2, docId);
    assert BatchIds(items, docId) - once.db.Keys == {};
  }

  /** The position of the last item written to document `k`. */
  function LastIndexOf<K(==)>(items: seq<Item>, k: K, docId: Item -> K): (i: nat)
    requires k in BatchIds(items, docId)
    ensures i < |items| && docId(items[i]) == k
    ensures forall j :: i < j < |items| ==> docId(items[j]) != k
    decreases |items|
  {
    var init := items[..|items| - 1];
    if docId(items[|items| - 1]) == k then |items| - 1
    else
      var i := LastIndexOf(init, k, docId);
      assert items[i] == init[i];
      assert forall j :: i < j < |init| ==> init[j] == items[j];
      i
  }

  /** Uploading the same results again at the same clock readings leaves the
      store as it was after the first upload. */
  lemma RerunSameClockIsIdempotent<K>(db: map<K, Record>, items: seq<Item>, crawlDate: Time, serverTime: Time, docId: Item -> K)
    ensures Batch(Batch(db, items, crawlDate, serverTime, docId).db, items, crawlDate, serverTime, docId).db
         == Batch(db, items, crawlDate, serverTime, docId).db
  {
    var once := Batch(db, items, crawlDate, serverTime, docId).db;
    var twice := Batch(once, items, crawlDate, serverTime, docId).db;
    var ids := BatchIds(items, docId);
    assert twice.Keys == once.Keys + ids;
    assert ids <= once.Keys;
    forall k | k in once ensures k in twice && twice[k] == once[k] {
      if k in ids {
        RerunKeepsDocument(db, items, crawlDate, serverTime, docId, k);
      }
    }
    MapsAgree(twice, once);
  }

  lemma MapsAgree<K>(a: map<K, Record>, b: map<K, Record>)
    requires a.Keys == b.Keys
    requires forall k :: k in b ==> a[k] == b[k]
    ensures a == b
  {
  }

  lemma RerunKeepsDocument<K>(db: map<K, Record>, items: seq<Item>, crawlDate: Time, serverTime: Time, docId: Item -> K, k: K)
    requires k in BatchIds(items, docId)
    ensures Batch(Batch(db, items, crawlDate, serverTime, docId).db, items, crawlDate, serverTime, docId).db[k]
         == Batch(db, items, crawlDate, serverTime, docId).db[k]
  {
    var once := Batch(db, items, crawlDate, serverTime, docId).db;
    var i := LastIndexOf(items, k, docId);
    LastWriteWins(db, items, crawlDate, serverTime, docId, i);
    LastWriteWins(once, items, crawlDate, serverTime, docId, i);
  }
}

=== FILE: wrappers.dfy ===
/** Optional values, standing in for Python's `None`-or-value returns. */
module Wrappers {

  datatype Option<+T> = None | Some(value: T)
}
